=== FILE: README.md ===
# Instance registry of the 7 Days to Die instance mod, in Dafny

The mod splits one game world into named **instances**. Each instance has its own set of
active players, its own per-player progress records, a capacity, and a few settings. A
process-wide **registry** (`InstanceManager`) holds every instance by id. It also keeps the
player-to-instance **assignment** map and a protected `"default"` instance, and it generates
ids that never collide. `CreateInstance` refuses a name already in use, ignoring case.
`Initialize` checks no names, so an instance created before it can share the default
instance's name (`RegistryProperties.InitializeMayDuplicateName`). From an initialised
registry with unique names, names stay unique (`Scenarios.RunKeepsUniqueNames`).

This project models that core as immutable datatypes and pure state-transition functions.
Each function returns `Step(result, newState)`. It proves what the core promises. It also
proves, each as its own lemma, the places where the code lets the assignment map and the
active sets drift apart.

Modules, one per file:

| file | module | contents |
|---|---|---|
| `common.dfy` | `Common` | `Option`, `Step` |
| `text.dfy` | `Text` | ASCII case folding for name comparison, the id stem of a name, decimal rendering of numbers |
| `unique_id.dfy` | `UniqueIds` | `GenerateUniqueId` and the termination and freshness argument for its counter loop |
| `player_data.dfy` | `PlayerInstanceData` | the per-player, per-instance progress record and the level curve |
| `instance.dfy` | `Instances` | one instance: membership, capacity, records, settings, reset |
| `registry.dfy` | `InstanceManager` | the registry and its operations, including the state effect of the spawn and disconnect events |
| `registry_properties.dfy` | `RegistryProperties` | properties of creation, lookup, assignment, removal and the events |
| `delete_properties.dfy` | `DeleteProperties` | deletion: the source's per-player loop versus the closed form, and consistency |
| `scenarios.dfy` | `Scenarios` | arbitrary operation sequences and concrete sessions |

Invariants named in the model:
- `Instances.Valid`:
  - every active player has a record;
  - records are filed under their own player and instance;
  - the empty id is never active;
  - a positive capacity bounds the active set.
- `InstanceManager.Valid`:
  - instances are filed under their own, non-empty id;
  - each instance is valid;
  - the default instance exists exactly when the registry is initialised.
- `InstanceManager.Consistent`: the assignment map and the active sets agree both ways. It combines `ActiveAreAssigned` and `AssignedAreActive`.
- `InstanceManager.NoDangling`: every assignment names a registered instance.

Every registry operation preserves `Valid`. `Consistent` is preserved by creation, by a
successful assignment to a non-empty instance id, by removal and by deletion. It is broken by a failed assignment to a
full instance and by a disconnect. `NoDangling` is broken by an assignment with the empty
instance id, and by a deletion that follows a disconnect.

Behaviour of the code that the model keeps as written:
- A failed assignment to a full target leaves the player out of the old instance while the assignment still names it (`RegistryProperties.AssignToFullTargetLeavesStaleAssignment`).
- `GetPlayerInstance` returns nothing when the assignment names an instance that no longer exists (`InstanceManager.GetPlayerInstance`, `DeleteProperties.DeleteAfterDisconnectDangles`).
- `Instance.AddPlayer` of a player who is already active returns false and changes nothing (`Instances.AddThenHas`).
- `CreateInstance` with an empty name throws `ArgumentException`. The model's `InvalidName` outcome stands for the exception (`InstanceManager.CreateInstance`).
- An assignment may name no registered instance: assigning with the empty id records `""` (`RegistryProperties.AssignWithEmptyIdRecordsEmpty`), and deleting an instance a player left by disconnecting or by a failed assignment keeps that player's assignment to it (`DeleteProperties.DeleteAfterDisconnectDangles`, `DeleteProperties.DeleteAfterFailedAssignDangles`).

## Model

| member | source | states |
|---|---|---|
| Text.Lower | src/InstanceMod/Core/InstanceManager.cs:120 | case folding keeps the length of the name, leaves no ASCII capital, and changes a character only by replacing a capital with its small letter |
| Text.SameNameIsEquivalence | src/InstanceMod/Core/InstanceManager.cs:120 | case-insensitive name equality is reflexive, symmetric and transitive |
| Text.SameNameOfCaseVariants | src/InstanceMod/Core/InstanceManager.cs:120 | two names that differ only in the case of ASCII letters are the same name |
| Text.SameNameIsCaseVariant | src/InstanceMod/Core/InstanceManager.cs:120 | conversely, two names that are the same name have equal length and differ at each position at most in ASCII letter case |
| Text.IdStem | src/InstanceMod/Core/InstanceManager.cs:447 | the id stem of a name has the name's length, contains no space, and is the case-folded name with each space replaced by `_` |
| Text.SameNameSameStem | src/InstanceMod/Core/InstanceManager.cs:447 | two spellings of the same name, ignoring case, give the same id stem |
| Text.DecimalString | src/InstanceMod/Core/InstanceManager.cs:448 | a number's decimal text is never empty, and has at least two digits from 10 on |
| Text.DecimalStringInjective | src/InstanceMod/Core/InstanceManager.cs:448 | different numbers render as different decimal text |
| UniqueIds.SuffixedInjective | src/InstanceMod/Core/InstanceManager.cs:455 | different counters give different suffixed ids |
| UniqueIds.CandidatesSize | src/InstanceMod/Core/InstanceManager.cs:451-457 | the first n suffixed ids are n distinct strings, which bounds the loop by the number of existing ids |
| UniqueIds.FirstFreeCounter | src/InstanceMod/Core/InstanceManager.cs:451-457 | the counter loop stops at the first counter whose suffixed id is unused, and every counter it skipped was in use |
| UniqueIds.GenerateUniqueId | src/InstanceMod/Core/InstanceManager.cs:444-460 | the generated id is not an existing key; it extends `stem_ticks`; it is exactly `stem_ticks` when that is free |
| PlayerInstanceData.NewPlayerData | src/InstanceMod/Core/PlayerInstanceData.cs:90-107 | a fresh record has level 1, no experience, zero counters, empty skills and custom data, and its level is on the curve |
| PlayerInstanceData.ISqrt | src/InstanceMod/Core/PlayerInstanceData.cs:239 | the integer square root r of n satisfies r² ≤ n < (r+1)² |
| PlayerInstanceData.ISqrtUnique | src/InstanceMod/Core/PlayerInstanceData.cs:239 | only one natural number satisfies r² ≤ n < (r+1)², so the floor of the square root is well defined |
| PlayerInstanceData.ISqrtMonotone | src/InstanceMod/Core/PlayerInstanceData.cs:239 | the integer square root is monotone |
| PlayerInstanceData.CalculateLevel | src/InstanceMod/Core/PlayerInstanceData.cs:232-240 | the level is at least 1, and is 1 below 100 experience (including non-positive experience) |
| PlayerInstanceData.CalculateLevelBrackets | src/InstanceMod/Core/PlayerInstanceData.cs:232-240 | level l is reached exactly by experience in [100(l-1)², 100l²) |
| PlayerInstanceData.CalculateLevelSamples | src/InstanceMod/Core/PlayerInstanceData.cs:234-239 | experience 0, 99, 100, 400 gives levels 1, 1, 2, 3 |
| PlayerInstanceData.CalculateLevelMonotone | src/InstanceMod/Core/PlayerInstanceData.cs:232-240 | more experience never gives a lower level |
| PlayerInstanceData.AddExperience | src/InstanceMod/Core/PlayerInstanceData.cs:124-138 | a non-positive amount changes nothing; otherwise experience grows by exactly the amount, and the level becomes the larger of the old level and the curve's level; nothing else changes |
| PlayerInstanceData.AddExperienceKeepsCurve | src/InstanceMod/Core/PlayerInstanceData.cs:129-137 | a record whose level is on the curve stays on the curve |
| PlayerInstanceData.LevelNeverDecreases | src/InstanceMod/Core/PlayerInstanceData.cs:133-136 | over any sequence of experience grants, neither level nor experience decreases |
| PlayerInstanceData.RecordDeath | src/InstanceMod/Core/PlayerInstanceData.cs:143-147 | the death count grows by one and no other field changes |
| PlayerInstanceData.RecordZombieKill | src/InstanceMod/Core/PlayerInstanceData.cs:152-155 | the zombie-kill count grows by one and no other field changes |
| PlayerInstanceData.RecordPlayerKill | src/InstanceMod/Core/PlayerInstanceData.cs:160-163 | the player-kill count grows by one and no other field changes |
| PlayerInstanceData.UpdateSkill | src/InstanceMod/Core/PlayerInstanceData.cs:168-174 | an empty skill name changes nothing, and only the skill map ever changes |
| PlayerInstanceData.GetSkillLevel | src/InstanceMod/Core/PlayerInstanceData.cs:179-185 | an unknown skill reads as 0 |
| PlayerInstanceData.SkillRoundTrip | src/InstanceMod/Core/PlayerInstanceData.cs:168-185 | a skill reads back as the level just stored, and other skills read as before |
| PlayerInstanceData.SetCustomData | src/InstanceMod/Core/PlayerInstanceData.cs:190-196 | an empty key changes nothing, and only the custom-data map ever changes |
| PlayerInstanceData.GetCustomData | src/InstanceMod/Core/PlayerInstanceData.cs:201-207 | the answer always has the requested type; it is the default or the stored value, and the default for a missing key |
| PlayerInstanceData.CustomDataRoundTrip | src/InstanceMod/Core/PlayerInstanceData.cs:190-207 | a stored value reads back when asked for with its own type, and a default of another type is returned otherwise |
| PlayerInstanceData.CustomDataFrame | src/InstanceMod/Core/PlayerInstanceData.cs:190-207 | storing under one key leaves every other key's reading unchanged |
| PlayerInstanceData.EmptyKeyIgnored | src/InstanceMod/Core/PlayerInstanceData.cs:192-193 | a value stored under the empty key is never read back |
| Instances.NewInstance | src/InstanceMod/Core/Instance.cs:75-89 | a new instance has no players, no records, unlimited capacity, is active, has the four default settings, and satisfies the instance invariant |
| Instances.AddPlayer | src/InstanceMod/Core/Instance.cs:98-125 | succeeds iff the id is non-empty, the instance has room and the player is not already active; a failure changes nothing; a success adds the player, keeps existing records and creates a fresh one only when missing; the instance invariant, including the capacity bound, is preserved |
| Instances.JoinKeepsValid | src/InstanceMod/Core/Instance.cs:104-118 | admitting a non-empty, absent player into an instance with room, with a record for it, keeps the instance invariant, including the capacity bound |
| Instances.RemovePlayer | src/InstanceMod/Core/Instance.cs:130-140 | reports whether the player was active; afterwards it is not; the records and the invariant are kept |
| Instances.HasPlayer | src/InstanceMod/Core/Instance.cs:145-148 | a player is present exactly when removing it reports true; a present player cannot be added again; in a valid instance a present player is non-empty and has a record |
| Instances.GetPlayerData | src/InstanceMod/Core/Instance.cs:153-159 | a record is found iff the player has one, and it is that record |
| Instances.Reset | src/InstanceMod/Core/Instance.cs:164-170 | no players and no records remain; identity, capacity, flag and settings are unchanged; the invariant is kept |
| Instances.AddThenHas | src/InstanceMod/Core/Instance.cs:98-148 | after a successful add the player is present and has a record, and a second add is refused |
| Instances.RemoveThenHasNot | src/InstanceMod/Core/Instance.cs:130-159 | after a remove the player is absent, its record is unchanged, and a second remove reports false |
| Instances.RejoinKeepsProgress | src/InstanceMod/Core/Instance.cs:110-140 | a player who leaves can always rejoin and finds the same progress record |
| Instances.ResetForgetsEveryone | src/InstanceMod/Core/Instance.cs:164-170 | after a reset nobody is present and nobody has a record |
| Instances.FullInstanceRefuses | src/InstanceMod/Core/Instance.cs:104-108 | an instance at capacity refuses any add and keeps its population |
| Instances.TwoSeatScenario | src/InstanceMod/Core/Instance.cs:98-125 | with room for two, two distinct players get in and a third does not |
| InstanceManager.DefaultInstance | src/InstanceMod/Core/InstanceManager.cs:82-84 | the default instance has id `"default"`, unlimited capacity, no players and is valid |
| InstanceManager.Initialize | src/InstanceMod/Core/InstanceManager.cs:69-100 | a second call changes nothing; the first registers the default instance and marks the registry initialised; validity is kept |
| InstanceManager.DefaultKey | src/InstanceMod/Core/InstanceManager.cs:146-147 | the default instance is available exactly when the registry is initialised |
| InstanceManager.ResolveKey | src/InstanceMod/Core/InstanceManager.cs:144-156 | the empty id resolves to the default instance; another id resolves iff it is registered, to itself |
| InstanceManager.GetInstance | src/InstanceMod/Core/InstanceManager.cs:144-156 | a non-empty id finds its instance iff registered; the empty id finds the default instance once initialised |
| InstanceManager.GetInstanceByName | src/InstanceMod/Core/InstanceManager.cs:161-171 | nothing for the empty name or an unused name; otherwise a registered instance whose name matches ignoring case |
| InstanceManager.CreateInstance | src/InstanceMod/Core/InstanceManager.cs:109-139 | the empty name is an error; a name in use ignoring case is refused with no change; otherwise exactly one instance is added under a fresh id, with the given name, owner and description, no players, unlimited capacity and the four default settings, and nothing else changes |
| InstanceManager.GeneratedIdIsNotDefault | src/InstanceMod/Core/InstanceManager.cs:444-460 | a generated id is never empty and never the default id |
| InstanceManager.AssignedKey | src/InstanceMod/Core/InstanceManager.cs:243-246 | a player's assignment resolves only to a registered instance, and to the named one when the name is non-empty |
| InstanceManager.LeaveCurrent | src/InstanceMod/Core/InstanceManager.cs:242-247 | the player leaves the instance its assignment resolves to; the assignment and all other instances stay |
| InstanceManager.AssignPlayerToInstance | src/InstanceMod/Core/InstanceManager.cs:227-258 | the empty player and an unknown target are refused with no change; a success records the requested id and puts the player in the target; a failure keeps the map; the player leaves an old instance different from the target; every instance keeps all fields but its players and records; records change only in the target, which becomes exactly what the instance-level add makes of it after the player has left its old instance; validity is kept |
| InstanceManager.AssignKeepsRecords | src/InstanceMod/Core/InstanceManager.cs:242-253 | an assignment keeps every existing progress record in every instance unchanged |
| InstanceManager.AssignMovesOnlyPlayer | src/InstanceMod/Core/InstanceManager.cs:242-253 | an assignment changes no active set except in the moved player, and only the target can gain it |
| InstanceManager.RemovePlayerFromInstance | src/InstanceMod/Core/InstanceManager.cs:263-283 | succeeds iff the player is non-empty and its assignment resolves; a success drops the assignment and the active-set membership, touching nothing else; a failure changes nothing |
| InstanceManager.PlayerKey | src/InstanceMod/Core/InstanceManager.cs:288-303 | an empty or unassigned player falls back to the default instance; otherwise the assignment is resolved |
| InstanceManager.GetPlayerInstance | src/InstanceMod/Core/InstanceManager.cs:288-303 | in an initialised registry an empty or unassigned player gets the default instance; an assigned player gets its instance, or nothing when that instance is gone |
| InstanceManager.GetPlayerData | src/InstanceMod/Core/InstanceManager.cs:308-326 | no record for the empty player; a named instance's record, or the record in the player's current instance; a record found always belongs to the player |
| InstanceManager.CurrentKey | src/InstanceMod/Core/InstanceManager.cs:316-324 | the instance `GetPlayerData` looks in when none is named is a registered one, none for the empty player, and on a valid registry the instance `GetPlayerInstance` reports |
| InstanceManager.EvictAllValid | src/InstanceMod/Core/InstanceManager.cs:204-212 | evicting players keeps the registry valid |
| InstanceManager.DeleteInstance | src/InstanceMod/Core/InstanceManager.cs:187-218 | the empty, default and unknown ids are refused with no change; otherwise exactly that key goes, each active player with a resolvable assignment loses it, other instances only lose those players, the default instance stays, validity is kept |
| InstanceManager.SetRecordPosition | src/InstanceMod/Core/InstanceManager.cs:366-371 | only the player's record moves to the new position |
| InstanceManager.MoveRecord | src/InstanceMod/Core/InstanceManager.cs:365-371 | only the instance `GetPlayerData` looks in can change, and in it only the player's own record, and only its position; the record the lookup finds afterwards has the new position |
| InstanceManager.OnPlayerSpawned | src/InstanceMod/Core/InstanceManager.cs:352-372 | the empty player changes nothing; an assigned player keeps its assignment, every active set and the set of players holding records in each instance; the record found afterwards holds the spawn position; the player's existing records change at most in their position; every instance keeps all fields but its players and records; validity is kept |
| InstanceManager.OnPlayerDisconnected | src/InstanceMod/Core/InstanceManager.cs:377-394 | the player leaves the instance its lookup reports, no other instance changes, nothing changes when the lookup finds none, and the assignment map is unchanged |
| RegistryProperties.InitializeFromEmpty | src/InstanceMod/Core/InstanceManager.cs:69-100 | the first initialisation yields exactly the default instance, unlimited, with no assignments, and a valid, consistent registry |
| RegistryProperties.InitializeIdempotent | src/InstanceMod/Core/InstanceManager.cs:71-75 | initialising twice is the same as initialising once |
| RegistryProperties.CreateKeepsConsistent | src/InstanceMod/Core/InstanceManager.cs:126-131 | creating an instance keeps the map and the active sets in agreement |
| RegistryProperties.CreateKeepsUniqueNames | src/InstanceMod/Core/InstanceManager.cs:119-131 | creation keeps names unique ignoring case |
| RegistryProperties.CreateRefusesCaseVariant | src/InstanceMod/Core/InstanceManager.cs:119-124 | after creating a name, creating any case variant of it is refused and changes nothing |
| RegistryProperties.CampIsCamp | src/InstanceMod/Core/InstanceManager.cs:120 | "Camp" and "camp" are the same name |
| RegistryProperties.FindByNameUnique | src/InstanceMod/Core/InstanceManager.cs:161-171 | with unique names, a name lookup finds exactly the instance carrying that name |
| RegistryProperties.CreatedIsFoundByName | src/InstanceMod/Core/InstanceManager.cs:109-171 | a newly created instance is what a lookup of its name returns |
| RegistryProperties.InitializeMayDuplicateName | src/InstanceMod/Core/InstanceManager.cs:69-124 | an instance created before initialisation as "default instance" and the default instance then share a name ignoring case |
| RegistryProperties.EmptyNameNotFound | src/InstanceMod/Core/InstanceManager.cs:163-164 | the empty name finds nothing |
| RegistryProperties.AssignedPlayerIsInItsInstance | src/InstanceMod/Core/InstanceManager.cs:288-303 | in a consistent initialised registry every player has an instance; an assigned player is active in it; an unassigned one gets the default |
| RegistryProperties.DefaultIsProtected | src/InstanceMod/Core/InstanceManager.cs:192-197 | deleting the default instance is refused and changes nothing |
| RegistryProperties.AssignIsLeaveThenAdd | src/InstanceMod/Core/InstanceManager.cs:242-256 | an assignment succeeds exactly when adding to the target succeeds after the player has left its old instance |
| RegistryProperties.AssignSucceedsUnlessFull | src/InstanceMod/Core/InstanceManager.cs:227-258 | under agreement, an assignment to a registered instance succeeds iff the target has room or already holds the player |
| RegistryProperties.MoveKeepsConsistent | src/InstanceMod/Core/InstanceManager.cs:242-253 | moving one player into one instance, with everyone else where they were, keeps agreement |
| RegistryProperties.AssignKeepsConsistent | src/InstanceMod/Core/InstanceManager.cs:227-258 | a successful assignment to a non-empty instance id keeps the map and the active sets in agreement |
| RegistryProperties.AssignToFullTargetLeavesStaleAssignment | src/InstanceMod/Core/InstanceManager.cs:243-256 | assigning to a full instance fails after the player has left its old instance, whose id the assignment still holds, so agreement is lost |
| RegistryProperties.AssignWithEmptyIdRecordsEmpty | src/InstanceMod/Core/InstanceManager.cs:144-303 | assigning with the empty id joins the default instance but records `""`, an assignment naming no instance; a later lookup of the player reports the default instance |
| RegistryProperties.RemoveKeepsConsistent | src/InstanceMod/Core/InstanceManager.cs:263-283 | removal keeps the map and the active sets in agreement |
| RegistryProperties.RemovedPlayerFallsBackToDefault | src/InstanceMod/Core/InstanceManager.cs:263-303 | after a successful removal the player's lookup reports the default instance |
| RegistryProperties.DisconnectLeavesStaleAssignment | src/InstanceMod/Core/InstanceManager.cs:377-394 | a disconnect keeps the assignment but drops the player from that instance, so agreement is lost |
| RegistryProperties.SpawnJoinsDefault | src/InstanceMod/Core/InstanceManager.cs:352-372 | an unassigned player who spawns is assigned to and active in the default instance, its record there holds the spawn position, and agreement holds |
| RegistryProperties.SpawnAssignsUnassigned | src/InstanceMod/Core/InstanceManager.cs:352-372 | on any valid initialised registry, an unassigned player who spawns is assigned to the default instance iff it is not active there and the instance has room; it is then active there with its record at the spawn position; no other instance changes |
| RegistryProperties.SpawnTouchesOnlyOwnRecord | src/InstanceMod/Core/InstanceManager.cs:352-372 | a spawn leaves every other player's record in every instance unchanged |
| DeleteProperties.EvictNoneIsIdentity | src/InstanceMod/Core/InstanceManager.cs:207-210 | evicting nobody changes nothing |
| DeleteProperties.EvictOneIsRemove | src/InstanceMod/Core/InstanceManager.cs:207-210 | the closed-form eviction of a single player is exactly `RemovePlayerFromInstance` of that player |
| DeleteProperties.RemoveKeepsOthersKeys | src/InstanceMod/Core/InstanceManager.cs:263-283 | removing one player does not change where any other player's assignment resolves |
| DeleteProperties.EvictStep | src/InstanceMod/Core/InstanceManager.cs:207-210 | removing one player and then evicting the rest equals evicting all of them |
| DeleteProperties.RemoveEachIsEvictAll | src/InstanceMod/Core/InstanceManager.cs:207-210 | removing the players one by one, in any order, has exactly the closed-form effect of evicting them all |
| DeleteProperties.DeleteIsRemoveEachThenDrop | src/InstanceMod/Core/InstanceManager.cs:204-216 | deletion equals removing each active player in any listing order and then unregistering the instance |
| DeleteProperties.DeleteKeepsConsistent | src/InstanceMod/Core/InstanceManager.cs:187-218 | deleting an instance keeps the map and the active sets in agreement |
| DeleteProperties.DeleteAfterDisconnectDangles | src/InstanceMod/Core/InstanceManager.cs:204-212 | deleting the instance a disconnected player is still assigned to leaves that assignment naming a missing instance |
| DeleteProperties.DeleteAfterFailedAssignDangles | src/InstanceMod/Core/InstanceManager.cs:204-256 | after an assignment refused by a full instance, deleting the player's old instance leaves its assignment naming a missing instance |
| Scenarios.Apply | src/InstanceMod/Core/InstanceManager.cs:109-394 | every registry operation keeps an initialised registry valid and initialised |
| Scenarios.RunKeepsDefault | src/InstanceMod/Core/InstanceManager.cs:187-197 | any sequence of operations on a valid initialised registry keeps it valid, and the default instance is never lost |
| Scenarios.SessionKeepsDefault | src/InstanceMod/Core/InstanceManager.cs:69-100 | after initialisation, whatever happens, the default instance exists |
| Scenarios.AssignKeepsNames | src/InstanceMod/Core/InstanceManager.cs:227-258 | an assignment renames no instance |
| Scenarios.ApplyKeepsUniqueNames | src/InstanceMod/Core/InstanceManager.cs:109-394 | no single operation makes two instances share a name ignoring case |
| Scenarios.RunKeepsUniqueNames | src/InstanceMod/Core/InstanceManager.cs:109-394 | names unique ignoring case stay unique over any sequence of operations on an initialised registry |
| Scenarios.SendAndReturn | src/InstanceMod/Core/InstanceManager.cs:227-303 | an unassigned player sent to an instance with room is reported in it, and after removal is reported in the default instance |
| Scenarios.ArenaScenario | src/InstanceMod/Core/InstanceManager.cs:227-303 | create "Arena", send P1 there and P1 is reported in "Arena"; remove P1 and it is reported in the default instance |
| Scenarios.WithCapacity | src/InstanceMod/Core/Instance.cs:51 | setting an instance's capacity changes only that capacity |
| Scenarios.FreshPlayerJoinsUnlessFull | src/InstanceMod/Core/InstanceManager.cs:227-258 | an unassigned player joins a registered instance iff it has room; the target becomes exactly what the instance-level add makes of it, and the player gains exactly that assignment; a refusal changes nothing |
| Scenarios.TwoOfThreeJoin | src/InstanceMod/Core/InstanceManager.cs:227-258 | three newcomers to an empty instance of capacity two: the first two join, the third is refused, two remain |
| Scenarios.DuoScenario | src/InstanceMod/Core/InstanceManager.cs:109-258 | "Duo" created with capacity two takes P1 and P2, refuses P3, and holds two players |

## Left out

- Locking (`lock (lockObject)`): every operation is one atomic sequential step.
- Logging (`Log.Out`, `Log.Warning`, `Log.Error`): no effect on state.
- Timestamps (`CreatedDate`, `LastAccessDate`, `FirstJoinDate`, `UpdateAccessTime`): not part of any decision. The clock reading that seeds generated ids is the `ticks` parameter.
- `LoadInstances`, `SaveInstances`, `SavePlayerInstanceData`, `OnGameStarted`, `OnGameShutdown`: they only log or update timestamps.
- `GetStats` of records and instances: string formatting only.
- `GetAllInstances` and the instance count: they read `instances` directly.
- `ClientInfo`, `RespawnType`, `PlayerDataFile` and cross-platform id resolution: events take the player id as a string, and the null-client early return is not modelled. The console command layer and the mod-loader hooks are not part of this model.
- `Vector3i`: positions are three integers.
- Null arguments: strings are never null, so the null-argument exceptions are not modelled. These are the record constructor's exceptions and the `Guid` fallback for a null instance id. A null description is not modelled either.
- `PlayTimeMinutes` and `InventoryData`: carried in the record, but no modelled operation changes them.
- `IsActive` and `Settings` after construction: carried, but only read or written by code outside this core.
- PlayerInstanceData.CalculateLevel: computes `floor(sqrt(exp / 100)) + 1` with the integer square root of `exp / 100`. The double-precision `Math.Sqrt` rounding is not modelled.
- PlayerInstanceData.AddExperience: experience and level are unbounded, so 32-bit overflow of `Experience` is not modelled.
- PlayerInstanceData.RecordDeath: counters are unbounded naturals, so 32-bit overflow is not modelled. The same holds for `RecordZombieKill` and `RecordPlayerKill`.
- PlayerInstanceData.GetCustomData: a stored `null` is not a modelled value. The four value kinds (string, int, bool, float as a real) stand for the CLR runtime type test.
- Text.Lower: folds ASCII letters only. `OrdinalIgnoreCase` also folds non-ASCII letters, so names that differ only in the case of a non-ASCII letter are different names here. Strings are sequences of characters with no Unicode case tables in the model.
- Text.IdStem: lower-cases ASCII letters only, where the culture-sensitive `ToLower` lower-cases every letter. Generated ids stay fresh either way; only their spelling for non-ASCII names differs.
- InstanceManager.GetInstanceByName: returns some instance whose name matches. The source returns the first match in dictionary enumeration order, which only matters when names are not unique. With unique names the answer is exact (`FindByNameUnique`).
- InstanceManager.DeleteInstance: requires an initialised registry for a non-empty id. The source dereferences the default instance there, which throws before `Initialize`.

=== FILE: common.dfy ===
/** Small helper datatypes shared by the instance registry model. */
module Common {

  /** A present-or-absent value; `None` stands for the source's `null` returns. */
  datatype Option<+T> = None | Some(value: T)

  /** The outcome of a state transition: what the operation returned, and the state after it. */
  datatype Step<+R, +S> = Step(result: R, state: S)
}

=== FILE: delete_properties.dfy ===
/**
 * Properties of instance deletion. The source walks a copy of the instance's active set and
 * calls `RemovePlayerFromInstance` on each player; the model states the combined effect in
 * closed form (`EvictAll`), and this module proves the two agree whatever order the set is
 * walked in.
 */
module DeleteProperties {
  import opened Common
  import Instances
  import opened InstanceManager
  import RegistryProperties

  /** `RemovePlayerFromInstance` applied to each player of `ps` in turn. */
  function RemoveEach(reg: Registry, ps: seq<string>): Registry
    decreases |ps|
  {
    if ps == [] then reg else RemoveEach(RemovePlayerFromInstance(reg, ps[0]).state, ps[1..])
  }

  predicate Distinct(ps: seq<string>)
  {
    forall i, j :: 0 <= i < j < |ps| ==> ps[i] != ps[j]
  }

  function Elements(ps: seq<string>): set<string>
  {
    set i | 0 <= i < |ps| :: ps[i]
  }

  /** Removing nobody changes nothing. */
  lemma EvictNoneIsIdentity(reg: Registry)
    ensures EvictAll(reg, {}) == reg
  {
    var r := EvictAll(reg, {});
    forall k | k in reg.instances
      ensures r.instances[k] == reg.instances[k]
    {
      assert EvicteesOf(reg, {}, k) == {};
      assert reg.instances[k].active - {} == reg.instances[k].active;
    }
    assert r.instances == reg.instances;
    assert Evictees(reg, {}) == {};
    assert r.assignments == reg.assignments;
  }

  /** Evicting a single player is exactly `RemovePlayerFromInstance` of that player. */
  lemma EvictOneIsRemove(reg: Registry, p: string)
    ensures EvictAll(reg, {p}) == RemovePlayerFromInstance(reg, p).state
  {
    EvictStep(reg, p, {});
    assert {} + {p} == {p};
    EvictNoneIsIdentity(RemovePlayerFromInstance(reg, p).state);
  }

  /** A removal only changes the player's own assignment, so other players resolve as before. */
  lemma RemoveKeepsOthersKeys(reg: Registry, p: string, q: string)
    requires q != p
    ensures AssignedKey(RemovePlayerFromInstance(reg, p).state, q) == AssignedKey(reg, q)
  {
    var r := RemovePlayerFromInstance(reg, p).state;
    if q in reg.assignments {
      var v := reg.assignments[q];
      assert ResolveKey(r, v) == ResolveKey(reg, v);
    }
  }

  /** Players who resolve to the same instances in two registries are evicted alike. */
  lemma SameKeysSameEvictees(a: Registry, b: Registry, players: set<string>)
    requires forall q :: q in players ==> AssignedKey(a, q) == AssignedKey(b, q)
    ensures Evictees(a, players) == Evictees(b, players)
    ensures forall k :: EvicteesOf(a, players, k) == EvicteesOf(b, players, k)
  {
  }

  /** Evicting one more player whose removal is a no-op changes nothing. */
  lemma EvictIgnoresIdle(reg: Registry, p: string, rest: set<string>)
    requires p == "" || AssignedKey(reg, p).None?
    ensures Evictees(reg, rest + {p}) == Evictees(reg, rest)
    ensures forall k :: EvicteesOf(reg, rest + {p}, k) == EvicteesOf(reg, rest, k)
  {
  }

  /** Evicting one more resolvable player adds it to the evictees of its own instance only. */
  lemma EvictAddsOne(reg: Registry, p: string, rest: set<string>, home: string)
    requires p != "" && AssignedKey(reg, p) == Some(home)
    ensures Evictees(reg, rest + {p}) == Evictees(reg, rest) + {p}
    ensures EvicteesOf(reg, rest + {p}, home) == EvicteesOf(reg, rest, home) + {p}
    ensures forall k :: k != home ==> EvicteesOf(reg, rest + {p}, k) == EvicteesOf(reg, rest, k)
  {
  }

  /** One more removal, taken first, is the same as evicting one more player. */
  lemma EvictStep(reg: Registry, p: string, rest: set<string>)
    requires p !in rest
    ensures EvictAll(RemovePlayerFromInstance(reg, p).state, rest) == EvictAll(reg, rest + {p})
  {
    var s := RemovePlayerFromInstance(reg, p);
    var r1 := s.state;
    forall q | q in rest
      ensures AssignedKey(r1, q) == AssignedKey(reg, q)
    {
      RemoveKeepsOthersKeys(reg, p, q);
    }
    SameKeysSameEvictees(r1, reg, rest);
    var a := EvictAll(r1, rest);
    var b := EvictAll(reg, rest + {p});
    if s.result {
      var home := AssignedKey(reg, p).value;
      EvictAddsOne(reg, p, rest, home);
      assert r1.instances[home].active == reg.instances[home].active - {p};
      forall k | k in reg.instances
        ensures a.instances[k] == b.instances[k]
      {
        assert r1.instances[k].(active := reg.instances[k].active) == reg.instances[k];
      }
      assert a.instances == b.instances;
      assert a.assignments == b.assignments;
    } else {
      EvictIgnoresIdle(reg, p, rest);
      assert a.instances == b.instances;
    }
  }

  /**
   * Calling `RemovePlayerFromInstance` on each player of a duplicate-free list, in any order,
   * has exactly the closed-form effect `EvictAll` of the list's elements.
   */
  lemma {:induction false} RemoveEachIsEvictAll(reg: Registry, ps: seq<string>)
    requires Distinct(ps)
    ensures RemoveEach(reg, ps) == EvictAll(reg, Elements(ps))
    decreases |ps|
  {
    if ps == [] {
      assert Elements(ps) == {};
      EvictNoneIsIdentity(reg);
    } else {
      var rest := ps[1..];
      assert Distinct(rest);
      assert Elements(ps) == Elements(rest) + {ps[0]};
      assert ps[0] !in Elements(rest);
      RemoveEachIsEvictAll(RemovePlayerFromInstance(reg, ps[0]).state, rest);
      EvictStep(reg, ps[0], Elements(rest));
    }
  }

  /**
   * `DeleteInstance` is the source's loop followed by unregistering the instance: for any
   * listing of the instance's active players, removing them one by one and then dropping the
   * instance gives the model's result.
   */
  lemma DeleteIsRemoveEachThenDrop(reg: Registry, id: string, ps: seq<string>)
    requires reg.initialized && id != "" && id != DefaultId && id in reg.instances
    requires Distinct(ps) && Elements(ps) == reg.instances[id].active
    ensures var looped := RemoveEach(reg, ps);
      DeleteInstance(reg, id) == Step(true, looped.(instances := looped.instances - {id}))
  {
    RemoveEachIsEvictAll(reg, ps);
  }

  /** When the map and the active sets agree, deleting an instance keeps them in agreement. */
  lemma DeleteKeepsConsistent(reg: Registry, id: string)
    requires "" !in reg.instances && "" !in reg.assignments && Consistent(reg) && reg.initialized
    ensures Consistent(DeleteInstance(reg, id).state)
  {
    var d := DeleteInstance(reg, id);
    if d.result {
      var r := d.state;
      var members := reg.instances[id].active;
      forall q | q in members
        ensures q != "" && AssignedKey(reg, q) == Some(id)
      {
        assert reg.assignments[q] == id;
      }
      assert Evictees(reg, members) == members;
      forall k | k in r.instances
        ensures r.instances[k].active == reg.instances[k].active
      {
        assert forall q :: q in EvicteesOf(reg, members, k) ==> AssignedKey(reg, q) == Some(id);
        assert EvicteesOf(reg, members, k) == {};
      }
      forall k, q | k in r.instances && q in r.instances[k].active
        ensures q in r.assignments && r.assignments[q] == k
      {
        assert reg.assignments[q] == k;
      }
      forall q | q in r.assignments
        ensures r.assignments[q] in r.instances && q in r.instances[r.assignments[q]].active
      {
        assert q !in members;
        assert reg.assignments[q] != id;
      }
      assert ActiveAreAssigned(r);
      assert AssignedAreActive(r);
    }
  }

  /**
   * A player who disconnected from an instance keeps an assignment to it; deleting that
   * instance then leaves the assignment naming an instance that no longer exists.
   */
  lemma DeleteAfterDisconnectDangles(reg: Registry, p: string)
    requires Valid(reg) && reg.initialized && Consistent(reg)
    requires p != "" && p in reg.assignments && reg.assignments[p] != DefaultId
    ensures var home := reg.assignments[p];
      var d := DeleteInstance(OnPlayerDisconnected(reg, p), home);
      && d.result
      && p in d.state.assignments && d.state.assignments[p] == home
      && home !in d.state.instances
      && !NoDangling(d.state)
  {
    var home := reg.assignments[p];
    var gone := OnPlayerDisconnected(reg, p);
    assert p !in gone.instances[home].active;
    assert p !in Evictees(gone, gone.instances[home].active);
  }

  /**
   * The same through a failed assignment: a player refused by a full instance has already
   * left its old instance but is still assigned to it, so deleting the old instance leaves
   * the assignment naming an instance that no longer exists.
   */
  lemma DeleteAfterFailedAssignDangles(reg: Registry, p: string, instanceId: string)
    requires Valid(reg) && reg.initialized && Consistent(reg)
    requires p != "" && p in reg.assignments && reg.assignments[p] != DefaultId
    requires instanceId != "" && instanceId in reg.instances && instanceId != reg.assignments[p]
    requires Instances.IsFull(reg.instances[instanceId])
    ensures var home := reg.assignments[p];
      var failed := AssignPlayerToInstance(reg, p, instanceId);
      var d := DeleteInstance(failed.state, home);
      && !failed.result
      && d.result
      && p in d.state.assignments && d.state.assignments[p] == home
      && home !in d.state.instances
      && !NoDangling(d.state)
  {
    var home := reg.assignments[p];
    var failed := AssignPlayerToInstance(reg, p, instanceId);
    RegistryProperties.AssignToFullTargetLeavesStaleAssignment(reg, p, instanceId);
    assert home in failed.state.instances && home != "";
    assert p !in Evictees(failed.state, failed.state.instances[home].active);
  }
}

=== FILE: instance.dfy ===
/** One named partition of the world: its active players, their progress records, capacity and settings. */
module Instances {
  import opened Common
  import opened PlayerInstanceData

  datatype Instance = Instance(
    id: string,
    name: string,
    description: string,
    ownerId: string,
    active: set<string>,
    maxPlayers: int,
    isActive: bool,
    settings: map<string, Value>,
    playerData: map<string, PlayerData>)

  /** `InitializeDefaultSettings`. */
  const DefaultSettings: map<string, Value> := map[
    "AllowPvP" := BoolValue(true),
    "SharedLoot" := BoolValue(false),
    "IsolateProgression" := BoolValue(true),
    "PersistentWorld" := BoolValue(true)]

  /**
   * The instance invariant: every active player has a progress record, every record is
   * filed under its own player and this instance, the empty id is never active, and a
   * positive capacity bounds the number of active players.
   */
  predicate Valid(inst: Instance)
  {
    && (forall p :: p in inst.active ==> p in inst.playerData)
    && (forall p :: p in inst.playerData ==> inst.playerData[p].playerId == p && inst.playerData[p].instanceId == inst.id)
    && "" !in inst.active
    && (inst.maxPlayers > 0 ==> |inst.active| <= inst.maxPlayers)
  }

  /** The constructor: no players, no records, unlimited capacity, active, default settings. */
  function NewInstance(id: string, name: string, ownerId: string): (inst: Instance)
    ensures inst.id == id && inst.name == name && inst.ownerId == ownerId
    ensures inst.active == {} && inst.playerData == map[]
    ensures inst.maxPlayers == 0 && inst.isActive
    ensures inst.settings == DefaultSettings
    ensures inst.settings.Keys == {"AllowPvP", "SharedLoot", "IsolateProgression", "PersistentWorld"}
    ensures inst.settings["AllowPvP"] == BoolValue(true)
    ensures inst.settings["SharedLoot"] == BoolValue(false)
    ensures inst.settings["IsolateProgression"] == BoolValue(true)
    ensures inst.settings["PersistentWorld"] == BoolValue(true)
    ensures Valid(inst)
  {
    Instance(id, name, "", ownerId, {}, 0, true, DefaultSettings, map[])
  }

  /** True when a positive capacity is already used up. */
  predicate IsFull(inst: Instance)
  {
    inst.maxPlayers > 0 && |inst.active| >= inst.maxPlayers
  }

  /**
   * `AddPlayer`: refuses the empty id, a full instance and a player who is already active,
   * changing nothing. Otherwise the player becomes active and gets a fresh record unless
   * one exists already, which is kept as it is.
   */
  function AddPlayer(inst: Instance, p: string): (r: Step<bool, Instance>)
    ensures r.result <==> p != "" && !IsFull(inst) && p !in inst.active
    ensures !r.result ==> r.state == inst
    ensures r.result ==> r.state.active == inst.active + {p}
    ensures r.result ==> r.state.playerData.Keys == inst.playerData.Keys + {p}
    ensures forall q :: q in inst.playerData ==> q in r.state.playerData && r.state.playerData[q] == inst.playerData[q]
    ensures r.result && p !in inst.playerData ==> r.state.playerData[p] == NewPlayerData(p, inst.id)
    ensures r.state.(active := inst.active, playerData := inst.playerData) == inst
    ensures Valid(inst) ==> Valid(r.state)
  {
    if p == "" then Step(false, inst)
    else if IsFull(inst) then Step(false, inst)
    else if p in inst.active then Step(false, inst)
    else
      var records := if p in inst.playerData then inst.playerData else inst.playerData[p := NewPlayerData(p, inst.id)];
      JoinKeepsValid(inst, p, records);
      Step(true, inst.(active := inst.active + {p}, playerData := records))
  }

  /** Admitting a player into a non-full instance, with a record for it, keeps the invariant. */
  lemma JoinKeepsValid(inst: Instance, p: string, records: map<string, PlayerData>)
    requires p != "" && !IsFull(inst) && p !in inst.active
    requires records == if p in inst.playerData then inst.playerData else inst.playerData[p := NewPlayerData(p, inst.id)]
    ensures Valid(inst) ==> Valid(inst.(active := inst.active + {p}, playerData := records))
  {
    assert |inst.active + {p}| == |inst.active| + 1;
  }

  /** `RemovePlayer`: reports whether the player was active; the progress record stays. */
  function RemovePlayer(inst: Instance, p: string): (r: Step<bool, Instance>)
    ensures r.result <==> p in inst.active
    ensures r.state.active == inst.active - {p}
    ensures r.state.(active := inst.active) == inst
    ensures Valid(inst) ==> Valid(r.state)
  {
    if p in inst.active then Step(true, inst.(active := inst.active - {p}))
    else Step(false, inst)
  }

  /**
   * `HasPlayer`: membership of the active set. A present player is exactly one that
   * `RemovePlayer` reports, and in a valid instance it is non-empty and has a record.
   */
  predicate HasPlayer(inst: Instance, p: string): (b: bool)
    ensures b <==> RemovePlayer(inst, p).result
    ensures b ==> !AddPlayer(inst, p).result
    ensures Valid(inst) && b ==> p != "" && GetPlayerData(inst, p).Some?
  {
    p in inst.active
  }

  /** `GetPlayerData`: the player's record in this instance, or nothing if there never was one. */
  function GetPlayerData(inst: Instance, p: string): (r: Option<PlayerData>)
    ensures r.Some? <==> p in inst.playerData
    ensures r.Some? ==> r.value == inst.playerData[p]
  {
    if p in inst.playerData then Some(inst.playerData[p]) else None
  }

  /** `Reset`: drops every active player and every record; identity, capacity and settings stay. */
  function Reset(inst: Instance): (r: Instance)
    ensures r.active == {} && r.playerData == map[]
    ensures r.(active := inst.active, playerData := inst.playerData) == inst
    ensures Valid(inst) ==> Valid(r)
  {
    inst.(active := {}, playerData := map[])
  }

  /** After a successful add the player is present and has a record. */
  lemma AddThenHas(inst: Instance, p: string)
    requires AddPlayer(inst, p).result
    ensures HasPlayer(AddPlayer(inst, p).state, p)
    ensures GetPlayerData(AddPlayer(inst, p).state, p).Some?
    ensures !AddPlayer(AddPlayer(inst, p).state, p).result
  {
  }

  /** After a remove the player is absent and the record is still there. */
  lemma RemoveThenHasNot(inst: Instance, p: string)
    ensures !HasPlayer(RemovePlayer(inst, p).state, p)
    ensures GetPlayerData(RemovePlayer(inst, p).state, p) == GetPlayerData(inst, p)
    ensures !RemovePlayer(RemovePlayer(inst, p).state, p).result
  {
  }

  /**
   * Progress survives leaving and rejoining: an active player who leaves can always come
   * back, and finds the same record.
   */
  lemma RejoinKeepsProgress(inst: Instance, p: string)
    requires Valid(inst)
    requires p in inst.active
    ensures var left := RemovePlayer(inst, p).state;
      && AddPlayer(left, p).result
      && GetPlayerData(AddPlayer(left, p).state, p) == GetPlayerData(inst, p)
  {
    var left := RemovePlayer(inst, p).state;
    assert |left.active| == |inst.active| - 1;
  }

  /** After a reset nobody is present and nobody has a record. */
  lemma ResetForgetsEveryone(inst: Instance, p: string)
    ensures !HasPlayer(Reset(inst), p)
    ensures GetPlayerData(Reset(inst), p) == None
  {
  }

  /** A full instance admits nobody and keeps its population. */
  lemma FullInstanceRefuses(inst: Instance, p: string)
    requires Valid(inst)
    requires inst.maxPlayers > 0 && |inst.active| == inst.maxPlayers
    ensures !AddPlayer(inst, p).result
    ensures |AddPlayer(inst, p).state.active| == inst.maxPlayers
  {
  }

  /** With room for two, the first two distinct players get in and the third does not. */
  lemma TwoSeatScenario(inst: Instance, p1: string, p2: string, p3: string)
    requires inst.maxPlayers == 2 && inst.active == {}
    requires p1 != "" && p2 != "" && p3 != "" && p1 != p2
    ensures var s1 := AddPlayer(inst, p1);
      var s2 := AddPlayer(s1.state, p2);
      var s3 := AddPlayer(s2.state, p3);
      s1.result && s2.result && !s3.result && |s3.state.active| == 2
  {
    var s1 := AddPlayer(inst, p1);
    assert s1.result && s1.state.active == {p1};
    var s2 := AddPlayer(s1.state, p2);
    assert s2.result && s2.state.active == {p1, p2};
    assert |s2.state.active| == 2;
    assert IsFull(s2.state);
  }
}

=== FILE: player_data.dfy ===
/** The per-player, per-instance progress record (`PlayerInstanceData`). */
module PlayerInstanceData {
  import opened Common

  /** A value in the custom-data store: the tagged form of the source's `object` values. */
  datatype Value =
    | StringValue(s: string)
    | IntValue(i: int)
    | BoolValue(b: bool)
    | FloatValue(f: real)

  /** The runtime type of a stored value, that `value is T` inspects. */
  datatype ValueType = StringType | IntType | BoolType | FloatType

  function TypeOf(v: Value): ValueType
  {
    match v
    case StringValue(_) => StringType
    case IntValue(_) => IntType
    case BoolValue(_) => BoolType
    case FloatValue(_) => FloatType
  }

  /** An integer grid position (`Vector3i`). */
  datatype Vec3 = Vec3(x: int, y: int, z: int)

  const Origin := Vec3(0, 0, 0)

  datatype PlayerData = PlayerData(
    playerId: string,
    instanceId: string,
    level: nat,
    experience: nat,
    lastPosition: Vec3,
    playTimeMinutes: nat,
    deathCount: nat,
    zombieKills: nat,
    playerKills: nat,
    customData: map<string, Value>,
    inventoryData: Option<string>,
    skillLevels: map<string, int>)

  /** The constructor: level 1, everything else zero or empty. */
  function NewPlayerData(playerId: string, instanceId: string): (d: PlayerData)
    ensures d.playerId == playerId && d.instanceId == instanceId
    ensures d.level == 1 && d.experience == 0 && d.playTimeMinutes == 0
    ensures d.deathCount == 0 && d.zombieKills == 0 && d.playerKills == 0
    ensures d.lastPosition == Origin && d.inventoryData == None
    ensures d.customData == map[] && d.skillLevels == map[]
    ensures LevelMatchesCurve(d)
  {
    PlayerData(playerId, instanceId, 1, 0, Origin, 0, 0, 0, 0, map[], None, map[])
  }

  // ---------------------------------------------------------------- level curve

  /** The integer square root: the largest `r` with `r * r <= n`. */
  function ISqrt(n: nat): (r: nat)
    ensures r * r <= n < (r + 1) * (r + 1)
  {
    if n == 0 then 0
    else
      var r := ISqrt(n - 1);
      assert (r + 2) * (r + 2) == (r + 1) * (r + 1) + 2 * r + 3;
      if (r + 1) * (r + 1) <= n then r + 1 else r
  }

  /** Squares of naturals are strictly ordered like their roots. */
  lemma SquareLess(a: nat, b: nat)
    requires a * a < b * b
    ensures a < b
  {
    assert (b - a) * (b + a) == b * b - a * a;
  }

  /** Any `r` bracketing `n` between consecutive squares is the integer square root. */
  lemma ISqrtUnique(n: nat, r: nat)
    requires r * r <= n < (r + 1) * (r + 1)
    ensures ISqrt(n) == r
  {
    var s := ISqrt(n);
    SquareLess(s, r + 1);
    SquareLess(r, s + 1);
  }

  lemma {:induction false} ISqrtMonotone(a: nat, b: nat)
    requires a <= b
    ensures ISqrt(a) <= ISqrt(b)
    decreases b - a
  {
    if a < b {
      ISqrtMonotone(a, b - 1);
    }
  }

  /** `CalculateLevel`: 1 for no experience, otherwise `floor(sqrt(exp / 100)) + 1`. */
  function CalculateLevel(exp: int): (level: nat)
    ensures level >= 1
    ensures exp < 100 ==> level == 1
  {
    if exp <= 0 then 1 else ISqrt(exp / 100) + 1
  }

  /** The level curve brackets the experience: level `L` needs `100 * (L-1)^2` points and no more than `100 * L^2 - 1`. */
  lemma CalculateLevelBrackets(exp: nat)
    ensures var l := CalculateLevel(exp); 100 * (l - 1) * (l - 1) <= exp < 100 * l * l
  {
    if exp > 0 {
      var q := exp / 100;
      ScaledBracket(exp, q, ISqrt(q));
    }
  }

  /** Scaling the square-root bracket of `q` by 100 brackets any `exp` with `exp / 100 == q`. */
  lemma ScaledBracket(exp: nat, q: nat, r: nat)
    requires 100 * q <= exp < 100 * q + 100
    requires r * r <= q < (r + 1) * (r + 1)
    ensures 100 * r * r <= exp < 100 * (r + 1) * (r + 1)
  {
    assert 100 * r * r == 100 * (r * r);
    assert 100 * (r + 1) * (r + 1) == 100 * ((r + 1) * (r + 1));
  }

  /** The documented sample points of the curve. */
  lemma CalculateLevelSamples()
    ensures CalculateLevel(0) == 1
    ensures CalculateLevel(99) == 1
    ensures CalculateLevel(100) == 2
    ensures CalculateLevel(400) == 3
  {
    ISqrtUnique(1, 1);
    ISqrtUnique(4, 2);
  }

  lemma CalculateLevelMonotone(a: int, b: int)
    requires a <= b
    ensures CalculateLevel(a) <= CalculateLevel(b)
  {
    if a > 0 {
      ISqrtMonotone(a / 100, b / 100);
    }
  }

  /** The record's level is the curve's value at its experience. */
  predicate LevelMatchesCurve(d: PlayerData)
  {
    d.level == CalculateLevel(d.experience)
  }

  // ---------------------------------------------------------------- experience and counters

  /**
   * `AddExperience`: a non-positive amount changes nothing; otherwise experience grows by
   * exactly `amount` and the level is raised to the curve's value when that is higher.
   */
  function AddExperience(d: PlayerData, amount: int): (r: PlayerData)
    ensures amount <= 0 ==> r == d
    ensures amount > 0 ==> r.experience == d.experience + amount
    ensures r.level >= d.level
    ensures amount > 0 ==> r.level >= CalculateLevel(r.experience)
    ensures r.level == d.level || r.level == CalculateLevel(r.experience)
    ensures r.(experience := d.experience, level := d.level) == d
  {
    if amount <= 0 then d
    else
      var exp := d.experience + amount;
      var newLevel := CalculateLevel(exp);
      if newLevel > d.level then d.(experience := exp, level := newLevel)
      else d.(experience := exp)
  }

  /** Adding experience keeps a record on the level curve, so the level is a function of experience alone. */
  lemma AddExperienceKeepsCurve(d: PlayerData, amount: int)
    requires LevelMatchesCurve(d)
    ensures LevelMatchesCurve(AddExperience(d, amount))
  {
    if amount > 0 {
      CalculateLevelMonotone(d.experience, d.experience + amount);
    }
  }

  /** Repeated additions never lower the level. */
  lemma {:induction false} LevelNeverDecreases(d: PlayerData, amounts: seq<int>)
    ensures AddAll(d, amounts).level >= d.level
    ensures AddAll(d, amounts).experience >= d.experience
    decreases |amounts|
  {
    if amounts != [] {
      LevelNeverDecreases(AddExperience(d, amounts[0]), amounts[1..]);
    }
  }

  /** A sequence of `AddExperience` calls, applied left to right. */
  function AddAll(d: PlayerData, amounts: seq<int>): PlayerData
    decreases |amounts|
  {
    if amounts == [] then d else AddAll(AddExperience(d, amounts[0]), amounts[1..])
  }

  function RecordDeath(d: PlayerData): (r: PlayerData)
    ensures r.deathCount == d.deathCount + 1
    ensures r.(deathCount := d.deathCount) == d
  {
    d.(deathCount := d.deathCount + 1)
  }

  function RecordZombieKill(d: PlayerData): (r: PlayerData)
    ensures r.zombieKills == d.zombieKills + 1
    ensures r.(zombieKills := d.zombieKills) == d
  {
    d.(zombieKills := d.zombieKills + 1)
  }

  function RecordPlayerKill(d: PlayerData): (r: PlayerData)
    ensures r.playerKills == d.playerKills + 1
    ensures r.(playerKills := d.playerKills) == d
  {
    d.(playerKills := d.playerKills + 1)
  }

  // ---------------------------------------------------------------- skills

  /** `UpdateSkill`: an empty skill name is ignored; otherwise the level is stored under the name. */
  function UpdateSkill(d: PlayerData, skill: string, level: int): (r: PlayerData)
    ensures skill == "" ==> r == d
    ensures r.(skillLevels := d.skillLevels) == d
  {
    if skill == "" then d else d.(skillLevels := d.skillLevels[skill := level])
  }

  /** `GetSkillLevel`: the stored level, or 0 for a skill never set. */
  function GetSkillLevel(d: PlayerData, skill: string): (level: int)
    ensures skill !in d.skillLevels ==> level == 0
  {
    if skill in d.skillLevels then d.skillLevels[skill] else 0
  }

  /** Reading a skill back after setting it yields the level set, and no other skill moves. */
  lemma SkillRoundTrip(d: PlayerData, skill: string, level: int, other: string)
    requires skill != ""
    requires other != skill
    ensures GetSkillLevel(UpdateSkill(d, skill, level), skill) == level
    ensures GetSkillLevel(UpdateSkill(d, skill, level), other) == GetSkillLevel(d, other)
  {
  }

  // ---------------------------------------------------------------- custom data

  /** `SetCustomData`: an empty key is ignored; otherwise the value is stored under the key. */
  function SetCustomData(d: PlayerData, key: string, value: Value): (r: PlayerData)
    ensures key == "" ==> r == d
    ensures r.(customData := d.customData) == d
  {
    if key == "" then d else d.(customData := d.customData[key := value])
  }

  /**
   * `GetCustomData<T>(key, defaultValue)`: the requested type `T` is the type of the default.
   * The stored value comes back only when the key is present and holds a value of that type.
   */
  function GetCustomData(d: PlayerData, key: string, default: Value): (r: Value)
    ensures TypeOf(r) == TypeOf(default)
    ensures r == default || (key in d.customData && r == d.customData[key])
    ensures key !in d.customData ==> r == default
  {
    if key in d.customData && TypeOf(d.customData[key]) == TypeOf(default) then d.customData[key]
    else default
  }

  /** Setting then reading with the same type returns the stored value; with another type, the default. */
  lemma CustomDataRoundTrip(d: PlayerData, key: string, value: Value, default: Value)
    requires key != ""
    ensures TypeOf(default) == TypeOf(value) ==> GetCustomData(SetCustomData(d, key, value), key, default) == value
    ensures TypeOf(default) != TypeOf(value) ==> GetCustomData(SetCustomData(d, key, value), key, default) == default
  {
  }

  /** Setting one key leaves every other key's reading unchanged. */
  lemma CustomDataFrame(d: PlayerData, key: string, value: Value, other: string, default: Value)
    requires other != key
    ensures GetCustomData(SetCustomData(d, key, value), other, default) == GetCustomData(d, other, default)
  {
  }

  /** Nothing stored under the empty key can ever be read back through it. */
  lemma EmptyKeyIgnored(d: PlayerData, value: Value, default: Value)
    requires "" !in d.customData
    ensures GetCustomData(SetCustomData(d, "", value), "", default) == default
  {
  }
}

=== FILE: registry.dfy ===
/**
 * The instance registry (`InstanceManager`): every instance by id, the player-to-instance
 * assignment, and the protected default instance.
 */
module InstanceManager {
  import opened Common
  import opened Text
  import opened UniqueIds
  import opened PlayerInstanceData
  import Instances

  type Instance = Instances.Instance

  /** The fixed id of the default instance (`DefaultInstanceId`). */
  const DefaultId := "default"

  datatype Registry = Registry(
    instances: map<string, Instance>,
    assignments: map<string, string>,
    initialized: bool)

  /** The registry before `Initialize`. */
  function Empty(): Registry
  {
    Registry(map[], map[], false)
  }

  /**
   * The registry invariant kept by every operation: instances are filed under their own,
   * non-empty id, each instance keeps its own invariant, and the default instance exists
   * exactly when the registry has been initialised.
   */
  predicate Valid(reg: Registry)
  {
    && (forall k :: k in reg.instances ==> reg.instances[k].id == k && k != "" && Instances.Valid(reg.instances[k]))
    && (reg.initialized <==> DefaultId in reg.instances)
  }

  /** Every active player is assigned to the instance it is active in. */
  predicate ActiveAreAssigned(reg: Registry)
  {
    forall k, p :: k in reg.instances && p in reg.instances[k].active ==> p in reg.assignments && reg.assignments[p] == k
  }

  /** Every assignment names a live instance, and the player is active there. */
  predicate AssignedAreActive(reg: Registry)
  {
    forall p :: p in reg.assignments ==> reg.assignments[p] in reg.instances && p in reg.instances[reg.assignments[p]].active
  }

  /** The two-way agreement between the assignment map and the active sets. */
  predicate Consistent(reg: Registry)
  {
    ActiveAreAssigned(reg) && AssignedAreActive(reg)
  }

  /** No assignment names an instance that is not registered. */
  predicate NoDangling(reg: Registry)
  {
    forall p :: p in reg.assignments ==> reg.assignments[p] in reg.instances
  }

  /** No two instances share a name, ignoring case. */
  predicate UniqueNames(reg: Registry)
  {
    forall j, k :: j in reg.instances && k in reg.instances && SameName(reg.instances[j].name, reg.instances[k].name) ==> j == k
  }

  /** Only a player's own active-set membership may differ between the two instances. */
  predicate OnlyMoves(before: Instance, after: Instance, p: string)
  {
    && after.(active := before.active) == before
    && after.active - {p} == before.active - {p}
  }

  /** Replacing one instance by a valid instance with the same id keeps the registry valid. */
  lemma ReplaceKeepsValid(reg: Registry, k: string, inst: Instance)
    requires k in reg.instances && inst.id == reg.instances[k].id
    requires Instances.Valid(reg.instances[k]) ==> Instances.Valid(inst)
    ensures Valid(reg) ==> Valid(reg.(instances := reg.instances[k := inst]))
  {
  }

  // ---------------------------------------------------------------- initialisation

  /** The default instance as `Initialize` builds it: unlimited, owned by "system". */
  function DefaultInstance(): (inst: Instance)
    ensures inst.id == DefaultId && inst.maxPlayers == 0
    ensures inst.active == {} && inst.playerData == map[]
    ensures Instances.Valid(inst)
  {
    Instances.NewInstance(DefaultId, "Default Instance", "system").(description := "Default instance for all players", maxPlayers := 0)
  }

  /** `Initialize`: registers the default instance once; a second call changes nothing. */
  function Initialize(reg: Registry): (r: Registry)
    ensures reg.initialized ==> r == reg
    ensures r.initialized
    ensures !reg.initialized ==> r.instances == reg.instances[DefaultId := DefaultInstance()] && r.assignments == reg.assignments
    ensures Valid(reg) ==> Valid(r)
  {
    if reg.initialized then reg
    else reg.(instances := reg.instances[DefaultId := DefaultInstance()], initialized := true)
  }

  // ---------------------------------------------------------------- lookups

  /** The key of the default instance, when there is one. */
  function DefaultKey(reg: Registry): (r: Option<string>)
    ensures r.Some? ==> r.value == DefaultId && DefaultId in reg.instances
    ensures Valid(reg) ==> (r.Some? <==> reg.initialized)
  {
    if reg.initialized && DefaultId in reg.instances then Some(DefaultId) else None
  }

  /** The key `GetInstance(id)` resolves to: the default for "", the id itself if registered. */
  function ResolveKey(reg: Registry, id: string): (r: Option<string>)
    ensures r.Some? ==> r.value in reg.instances
    ensures id != "" ==> (r.Some? <==> id in reg.instances) && (r.Some? ==> r.value == id)
    ensures id == "" ==> r == DefaultKey(reg)
  {
    if id == "" then DefaultKey(reg)
    else if id in reg.instances then Some(id)
    else None
  }

  /** `GetInstance`: the default instance for the empty id, otherwise the instance with that id, if any. */
  function GetInstance(reg: Registry, id: string): (r: Option<Instance>)
    ensures id != "" ==> (r.Some? <==> id in reg.instances) && (r.Some? ==> r.value == reg.instances[id])
    ensures Valid(reg) && id == "" ==> (r.Some? <==> reg.initialized) && (r.Some? ==> r.value.id == DefaultId)
  {
    match ResolveKey(reg, id)
    case Some(k) => Some(reg.instances[k])
    case None => None
  }

  /** Whether some registered instance already carries the name, ignoring case. */
  predicate NameInUse(reg: Registry, name: string)
  {
    exists k :: k in reg.instances && SameName(reg.instances[k].name, name)
  }

  /**
   * `GetInstanceByName`: nothing for the empty name, otherwise an instance whose name equals
   * the given one ignoring case. The source returns the first match in dictionary order; the
   * model returns some match.
   */
  ghost function GetInstanceByName(reg: Registry, name: string): (r: Option<Instance>)
    ensures r.None? <==> name == "" || !NameInUse(reg, name)
    ensures r.Some? ==> exists k :: k in reg.instances && reg.instances[k] == r.value && SameName(r.value.name, name)
  {
    if name == "" || !NameInUse(reg, name) then None
    else
      var k :| k in reg.instances && SameName(reg.instances[k].name, name);
      Some(reg.instances[k])
  }

  // ---------------------------------------------------------------- creation

  datatype CreateOutcome =
    | InvalidName                      // the source throws ArgumentException
    | NameTaken                        // the source returns null
    | Created(instance: Instance)

  /**
   * `CreateInstance`: the empty name is an error, a name already in use (ignoring case) is
   * refused, and otherwise a new instance is registered under a freshly generated id.
   * `ticks` stands for the clock reading that seeds the id.
   */
  function CreateInstance(reg: Registry, name: string, ownerId: string, description: string, ticks: nat): (r: Step<CreateOutcome, Registry>)
    ensures r.result == InvalidName <==> name == ""
    ensures r.result == NameTaken <==> name != "" && NameInUse(reg, name)
    ensures !r.result.Created? ==> r.state == reg
    ensures r.result.Created? ==>
      var inst := r.result.instance;
      && inst.id !in reg.instances
      && r.state.instances == reg.instances[inst.id := inst]
      && r.state.assignments == reg.assignments && r.state.initialized == reg.initialized
      && inst.name == name && inst.ownerId == ownerId && inst.description == description
      && inst.active == {} && inst.playerData == map[] && inst.maxPlayers == 0 && inst.isActive
      && inst.settings == Instances.DefaultSettings
      && BaseId(name, ticks) <= inst.id
    ensures Valid(reg) ==> Valid(r.state)
  {
    if name == "" then Step(InvalidName, reg)
    else
      var id := GenerateUniqueId(reg.instances.Keys, name, ticks);
      if NameInUse(reg, name) then Step(NameTaken, reg)
      else
        GeneratedIdIsNotDefault(reg.instances.Keys, name, ticks);
        var inst := Instances.NewInstance(id, name, ownerId).(description := description);
        Step(Created(inst), reg.(instances := reg.instances[id := inst]))
  }

  /** A generated id always holds an underscore, so it is neither empty nor the default id. */
  lemma GeneratedIdIsNotDefault(keys: set<string>, name: string, ticks: nat)
    ensures GenerateUniqueId(keys, name, ticks) != DefaultId
    ensures GenerateUniqueId(keys, name, ticks) != ""
  {
    var id := GenerateUniqueId(keys, name, ticks);
    var i := |IdStem(name)|;
    assert id[i] == '_';
  }

  // ---------------------------------------------------------------- player assignment

  /** The instance key a player's assignment resolves to, if the player has one. */
  function AssignedKey(reg: Registry, p: string): (r: Option<string>)
    ensures r.Some? ==> p in reg.assignments && r.value in reg.instances
    ensures p in reg.assignments && reg.assignments[p] != "" ==>
      (r.Some? <==> reg.assignments[p] in reg.instances) && (r.Some? ==> r.value == reg.assignments[p])
  {
    if p in reg.assignments then ResolveKey(reg, reg.assignments[p]) else None
  }

  /**
   * The first half of an assignment: the player leaves the active set of the instance its
   * current assignment resolves to; the assignment itself stays.
   */
  function LeaveCurrent(reg: Registry, p: string): (r: Registry)
    ensures r.instances.Keys == reg.instances.Keys && r.initialized == reg.initialized
    ensures r.assignments == reg.assignments
    ensures AssignedKey(reg, p).Some? ==> p !in r.instances[AssignedKey(reg, p).value].active
    ensures forall k :: k in reg.instances ==> OnlyMoves(reg.instances[k], r.instances[k], p)
    ensures forall k :: k in reg.instances ==> r.instances[k].active <= reg.instances[k].active
    ensures forall k :: k in reg.instances && Some(k) != AssignedKey(reg, p) ==> r.instances[k] == reg.instances[k]
    ensures Valid(reg) ==> Valid(r)
  {
    match AssignedKey(reg, p)
    case None => reg
    case Some(k) =>
      var inst := Instances.RemovePlayer(reg.instances[k], p).state;
      ReplaceKeepsValid(reg, k, inst);
      reg.(instances := reg.instances[k := inst])
  }

  /** Putting back one instance that differs only in players and records keeps every other field of every instance. */
  lemma ReplaceKeepsFields(reg: Registry, left: Registry, target: string, inst: Instance)
    requires left.instances.Keys == reg.instances.Keys && target in left.instances
    requires forall k :: k in reg.instances ==>
      left.instances[k].(active := reg.instances[k].active, playerData := reg.instances[k].playerData) == reg.instances[k]
    requires inst.(active := left.instances[target].active, playerData := left.instances[target].playerData) == left.instances[target]
    ensures forall k :: k in reg.instances ==>
      left.instances[target := inst][k].(active := reg.instances[k].active, playerData := reg.instances[k].playerData) == reg.instances[k]
  {
  }

  /**
   * `AssignPlayerToInstance`: refuses the empty player id and an unknown target. Otherwise it
   * first takes the player out of the instance its current assignment resolves to, then tries
   * to add it to the target; the assignment is rewritten only when that add succeeds.
   */
  function AssignPlayerToInstance(reg: Registry, p: string, instanceId: string): (r: Step<bool, Registry>)
    ensures r.state.instances.Keys == reg.instances.Keys && r.state.initialized == reg.initialized
    ensures p == "" || ResolveKey(reg, instanceId).None? ==> !r.result && r.state == reg
    ensures r.result ==> p != "" && ResolveKey(reg, instanceId).Some?
    ensures r.result ==> r.state.assignments == reg.assignments[p := instanceId]
    ensures r.result ==> p in r.state.instances[ResolveKey(reg, instanceId).value].active
    ensures !r.result ==> r.state.assignments == reg.assignments
    ensures p != "" && ResolveKey(reg, instanceId).Some? && AssignedKey(reg, p).Some?
        && AssignedKey(reg, p) != ResolveKey(reg, instanceId)
        ==> p !in r.state.instances[AssignedKey(reg, p).value].active
    ensures forall k :: k in reg.instances ==>
      r.state.instances[k].(active := reg.instances[k].active, playerData := reg.instances[k].playerData) == reg.instances[k]
    ensures forall k :: k in reg.instances && Some(k) != ResolveKey(reg, instanceId) ==>
      r.state.instances[k].playerData == reg.instances[k].playerData
    ensures r.result ==>
      r.state.instances[ResolveKey(reg, instanceId).value] == Instances.AddPlayer(LeaveCurrent(reg, p).instances[ResolveKey(reg, instanceId).value], p).state
    ensures Valid(reg) ==> Valid(r.state)
  {
    if p == "" then Step(false, reg)
    else match ResolveKey(reg, instanceId)
      case None => Step(false, reg)
      case Some(target) =>
        var left := LeaveCurrent(reg, p);
        var added := Instances.AddPlayer(left.instances[target], p);
        if added.result then
          var joined := left.(instances := left.instances[target := added.state], assignments := reg.assignments[p := instanceId]);
          ReplaceKeepsValid(left, target, added.state);
          ReplaceKeepsFields(reg, left, target, added.state);
          Step(true, joined)
        else Step(false, left)
  }

  /**
   * An assignment moves only the player: every active set is unchanged apart from `p`, and
   * no instance but the target gains anyone.
   */
  lemma AssignMovesOnlyPlayer(reg: Registry, p: string, instanceId: string)
    ensures var r := AssignPlayerToInstance(reg, p, instanceId);
      && (forall k :: k in reg.instances ==> r.state.instances[k].active - {p} == reg.instances[k].active - {p})
      && (forall k :: k in reg.instances && Some(k) != ResolveKey(reg, instanceId) ==> r.state.instances[k].active <= reg.instances[k].active)
  {
    var r := AssignPlayerToInstance(reg, p, instanceId);
    if p == "" || ResolveKey(reg, instanceId).None? {
      assert r.state == reg;
    } else {
      var target := ResolveKey(reg, instanceId).value;
      var left := LeaveCurrent(reg, p);
      var added := Instances.AddPlayer(left.instances[target], p);
      forall k | k in reg.instances
        ensures r.state.instances[k].active - {p} == reg.instances[k].active - {p}
        ensures Some(k) != ResolveKey(reg, instanceId) ==> r.state.instances[k].active <= reg.instances[k].active
      {
        assert OnlyMoves(reg.instances[k], left.instances[k], p);
        assert left.instances[k].active <= reg.instances[k].active;
        if added.result {
          assert r.state.instances == left.instances[target := added.state];
        } else {
          assert r.state == left;
        }
      }
    }
  }

  /**
   * An assignment keeps every progress record: the only record it can add is the player's
   * first one in the target.
   */
  lemma AssignKeepsRecords(reg: Registry, p: string, instanceId: string)
    ensures var r := AssignPlayerToInstance(reg, p, instanceId);
      forall k, q :: k in reg.instances && q in reg.instances[k].playerData ==>
        q in r.state.instances[k].playerData && r.state.instances[k].playerData[q] == reg.instances[k].playerData[q]
  {
    var r := AssignPlayerToInstance(reg, p, instanceId);
    if p != "" && ResolveKey(reg, instanceId).Some? {
      var target := ResolveKey(reg, instanceId).value;
      var left := LeaveCurrent(reg, p);
      var added := Instances.AddPlayer(left.instances[target], p);
      forall k, q | k in reg.instances && q in reg.instances[k].playerData
        ensures q in r.state.instances[k].playerData && r.state.instances[k].playerData[q] == reg.instances[k].playerData[q]
      {
        assert OnlyMoves(reg.instances[k], left.instances[k], p);
        if added.result {
          assert r.state.instances == left.instances[target := added.state];
        } else {
          assert r.state == left;
        }
      }
    }
  }

  /**
   * `RemovePlayerFromInstance`: when the player's assignment resolves to an instance, the
   * player leaves that instance's active set and loses the assignment; otherwise nothing
   * happens and the answer is false.
   */
  function RemovePlayerFromInstance(reg: Registry, p: string): (r: Step<bool, Registry>)
    ensures r.state.instances.Keys == reg.instances.Keys && r.state.initialized == reg.initialized
    ensures r.result <==> p != "" && AssignedKey(reg, p).Some?
    ensures !r.result ==> r.state == reg
    ensures r.result ==> r.state.assignments == reg.assignments - {p}
    ensures r.result ==> p !in r.state.instances[AssignedKey(reg, p).value].active
    ensures forall k :: k in reg.instances ==> OnlyMoves(reg.instances[k], r.state.instances[k], p)
    ensures forall k :: k in reg.instances && Some(k) != AssignedKey(reg, p) ==> r.state.instances[k] == reg.instances[k]
    ensures Valid(reg) ==> Valid(r.state)
  {
    if p == "" then Step(false, reg)
    else match AssignedKey(reg, p)
      case None => Step(false, reg)
      case Some(k) =>
        Step(true, Registry(reg.instances[k := Instances.RemovePlayer(reg.instances[k], p).state], reg.assignments - {p}, reg.initialized))
  }

  /** The instance key `GetPlayerInstance` resolves to: the assignment, or the default. */
  function PlayerKey(reg: Registry, p: string): (r: Option<string>)
    ensures r.Some? ==> r.value in reg.instances
    ensures p == "" || p !in reg.assignments ==> r == DefaultKey(reg)
    ensures p != "" && p in reg.assignments ==> r == ResolveKey(reg, reg.assignments[p])
  {
    if p != "" && p in reg.assignments then ResolveKey(reg, reg.assignments[p]) else DefaultKey(reg)
  }

  /**
   * `GetPlayerInstance`: the default instance for the empty or an unassigned player, otherwise
   * the instance the assignment names; that lookup is absent when the assignment dangles.
   */
  function GetPlayerInstance(reg: Registry, p: string): (r: Option<Instance>)
    ensures Valid(reg) && reg.initialized && (p == "" || p !in reg.assignments) ==> r.Some? && r.value.id == DefaultId
    ensures p != "" && p in reg.assignments && reg.assignments[p] != "" ==>
      (r.Some? <==> reg.assignments[p] in reg.instances) && (r.Some? ==> r.value == reg.instances[reg.assignments[p]])
    ensures Valid(reg) && reg.initialized && NoDangling(reg) ==> r.Some?
  {
    match PlayerKey(reg, p)
    case Some(k) => Some(reg.instances[k])
    case None => None
  }

  /**
   * `GetPlayerData`: the player's record in the named instance; with no instance named, in
   * the instance of the player's assignment, or in the default instance.
   */
  function GetPlayerData(reg: Registry, p: string, instanceId: string): (r: Option<PlayerData>)
    ensures p == "" ==> r.None?
    ensures p != "" && instanceId != "" ==>
      r == (if instanceId in reg.instances then Instances.GetPlayerData(reg.instances[instanceId], p) else None)
    ensures Valid(reg) && p != "" && instanceId == "" ==>
      r == (match GetPlayerInstance(reg, p) case Some(inst) => Instances.GetPlayerData(inst, p) case None => None)
    ensures Valid(reg) && r.Some? ==> r.value.playerId == p
  {
    if p == "" then None
    else if instanceId != "" then
      match GetInstance(reg, instanceId)
      case Some(inst) => Instances.GetPlayerData(inst, p)
      case None => None
    else
      match CurrentKey(reg, p)
      case Some(k) => Instances.GetPlayerData(reg.instances[k], p)
      case None => None
  }

  /**
   * The key `GetPlayerData(p)` looks in when no instance is named: where the player's
   * assignment resolves, or the default id for an unassigned player. On a valid registry it
   * is the instance `GetPlayerInstance` reports.
   */
  function CurrentKey(reg: Registry, p: string): (r: Option<string>)
    ensures r.Some? ==> r.value in reg.instances
    ensures p == "" ==> r.None?
    ensures Valid(reg) && p != "" ==> r == PlayerKey(reg, p)
  {
    if p == "" then None
    else ResolveKey(reg, if p in reg.assignments then reg.assignments[p] else DefaultId)
  }

  // ---------------------------------------------------------------- deletion

  /** The players among `players` whose removal takes effect: non-empty, with a resolvable assignment. */
  function Evictees(reg: Registry, players: set<string>): (r: set<string>)
    ensures forall p :: p in r <==> p in players && p != "" && AssignedKey(reg, p).Some?
  {
    set p | p in players && p != "" && AssignedKey(reg, p).Some?
  }

  /** The players among `players` whose removal acts on instance `k`. */
  function EvicteesOf(reg: Registry, players: set<string>, k: string): (r: set<string>)
    ensures forall p :: p in r <==> p in Evictees(reg, players) && AssignedKey(reg, p) == Some(k)
  {
    set p | p in Evictees(reg, players) && AssignedKey(reg, p) == Some(k)
  }

  /** The combined effect of `RemovePlayerFromInstance` on each of `players`. */
  function EvictAll(reg: Registry, players: set<string>): (r: Registry)
    ensures r.instances.Keys == reg.instances.Keys && r.initialized == reg.initialized
    ensures r.assignments == reg.assignments - Evictees(reg, players)
    ensures forall k :: k in reg.instances ==>
      r.instances[k] == reg.instances[k].(active := reg.instances[k].active - EvicteesOf(reg, players, k))
  {
    reg.(instances := map k | k in reg.instances :: reg.instances[k].(active := reg.instances[k].active - EvicteesOf(reg, players, k)),
         assignments := reg.assignments - Evictees(reg, players))
  }

  lemma EvictAllValid(reg: Registry, players: set<string>)
    ensures Valid(reg) ==> Valid(EvictAll(reg, players))
  {
    var r := EvictAll(reg, players);
    forall k | Valid(reg) && k in r.instances
      ensures Instances.Valid(r.instances[k])
    {
      SubsetSize(r.instances[k].active, reg.instances[k].active);
    }
  }

  /**
   * `DeleteInstance`: refuses the empty id, the default id and an unknown id. Otherwise every
   * active player of the instance goes through `RemovePlayerFromInstance`, and the instance is
   * unregistered. The source dereferences the default instance here, so a non-empty id needs
   * an initialised registry.
   */
  function DeleteInstance(reg: Registry, id: string): (r: Step<bool, Registry>)
    requires id != "" ==> reg.initialized
    ensures r.result <==> id != "" && id != DefaultId && id in reg.instances
    ensures !r.result ==> r.state == reg
    ensures r.result ==> r.state.instances.Keys == reg.instances.Keys - {id}
    ensures r.result ==> r.state.assignments == reg.assignments - Evictees(reg, reg.instances[id].active)
    ensures r.result ==> forall k :: k in r.state.instances ==>
      r.state.instances[k].active == reg.instances[k].active - EvicteesOf(reg, reg.instances[id].active, k)
    ensures r.result ==> forall p :: p in reg.instances[id].active && p != "" && AssignedKey(reg, p).Some? ==> p !in r.state.assignments
    ensures forall p :: p in r.state.assignments ==> p in reg.assignments && r.state.assignments[p] == reg.assignments[p]
    ensures forall k :: k in r.state.instances ==>
      k in reg.instances && r.state.instances[k].(active := reg.instances[k].active) == reg.instances[k]
      && r.state.instances[k].active <= reg.instances[k].active
    ensures DefaultId in reg.instances ==> DefaultId in r.state.instances
    ensures r.state.initialized == reg.initialized
    ensures Valid(reg) ==> Valid(r.state)
  {
    if id == "" then Step(false, reg)
    else if id == DefaultId then Step(false, reg)
    else if id !in reg.instances then Step(false, reg)
    else
      var evicted := EvictAll(reg, reg.instances[id].active);
      EvictAllValid(reg, reg.instances[id].active);
      Step(true, evicted.(instances := evicted.instances - {id}))
  }

  // ---------------------------------------------------------------- game events

  /**
   * The record update of `OnPlayerSpawned`: the record `GetPlayerData(p)` finds, if any,
   * takes the spawn position; nothing else changes.
   */
  function SetRecordPosition(inst: Instance, p: string, pos: Vec3): (r: Instance)
    requires p in inst.playerData
    ensures r.(playerData := inst.playerData) == inst
    ensures r.playerData.Keys == inst.playerData.Keys
    ensures r.playerData[p] == inst.playerData[p].(lastPosition := pos)
    ensures forall q :: q in inst.playerData && q != p ==> r.playerData[q] == inst.playerData[q]
    ensures Instances.Valid(inst) ==> Instances.Valid(r)
  {
    inst.(playerData := inst.playerData[p := inst.playerData[p].(lastPosition := pos)])
  }

  /**
   * The record update of `OnPlayerSpawned` on the registry: the player's record in the
   * instance `CurrentKey` names, if there is one, takes the position; every other record and
   * every other instance stays as it was.
   */
  function MoveRecord(reg: Registry, p: string, pos: Vec3): (r: Registry)
    ensures r.instances.Keys == reg.instances.Keys && r.initialized == reg.initialized
    ensures r.assignments == reg.assignments
    ensures forall k :: k in reg.instances && Some(k) != CurrentKey(reg, p) ==> r.instances[k] == reg.instances[k]
    ensures forall k :: k in reg.instances ==>
      && r.instances[k].(playerData := reg.instances[k].playerData) == reg.instances[k]
      && r.instances[k].playerData.Keys == reg.instances[k].playerData.Keys
    ensures forall k, q :: k in reg.instances && q in reg.instances[k].playerData && q != p ==>
      r.instances[k].playerData[q] == reg.instances[k].playerData[q]
    ensures forall k :: k in reg.instances && p in reg.instances[k].playerData ==>
      r.instances[k].playerData[p] == reg.instances[k].playerData[p].(lastPosition := r.instances[k].playerData[p].lastPosition)
    ensures Valid(reg) ==> Valid(r)
    ensures GetPlayerData(r, p, "").Some? ==> GetPlayerData(r, p, "").value.lastPosition == pos
  {
    match CurrentKey(reg, p)
    case None => reg
    case Some(k) =>
      if p in reg.instances[k].playerData then
        var inst := SetRecordPosition(reg.instances[k], p, pos);
        ReplaceKeepsValid(reg, k, inst);
        reg.(instances := reg.instances[k := inst])
      else reg
  }

  /**
   * The state effect of `OnPlayerSpawned`: an unassigned player is assigned to the default
   * instance, then the player's current record, if any, takes the spawn position.
   */
  function OnPlayerSpawned(reg: Registry, p: string, pos: Vec3): (r: Registry)
    ensures r.instances.Keys == reg.instances.Keys && r.initialized == reg.initialized
    ensures p == "" ==> r == reg
    ensures p in reg.assignments ==> r.assignments == reg.assignments
    ensures p in reg.assignments ==> forall k :: k in reg.instances ==> r.instances[k].active == reg.instances[k].active
    ensures p in reg.assignments ==> forall k :: k in reg.instances ==> r.instances[k].playerData.Keys == reg.instances[k].playerData.Keys
    ensures GetPlayerData(r, p, "").Some? ==> GetPlayerData(r, p, "").value.lastPosition == pos
    ensures forall k :: k in reg.instances ==>
      r.instances[k].(active := reg.instances[k].active, playerData := reg.instances[k].playerData) == reg.instances[k]
    ensures forall k :: k in reg.instances && p in reg.instances[k].playerData ==>
      && p in r.instances[k].playerData
      && r.instances[k].playerData[p] == reg.instances[k].playerData[p].(lastPosition := r.instances[k].playerData[p].lastPosition)
    ensures Valid(reg) ==> Valid(r)
  {
    var joined := if p !in reg.assignments then AssignPlayerToInstance(reg, p, DefaultId).state else reg;
    AssignKeepsRecords(reg, p, DefaultId);
    MoveRecord(joined, p, pos)
  }

  /**
   * The state effect of `OnPlayerDisconnected`: the player leaves the active set of the
   * instance `GetPlayerInstance` reports, and keeps the assignment.
   */
  function OnPlayerDisconnected(reg: Registry, p: string): (r: Registry)
    ensures r.assignments == reg.assignments
    ensures r.instances.Keys == reg.instances.Keys && r.initialized == reg.initialized
    ensures PlayerKey(reg, p).Some? ==> p !in r.instances[PlayerKey(reg, p).value].active
    ensures forall k :: k in reg.instances ==> OnlyMoves(reg.instances[k], r.instances[k], p)
    ensures forall k :: k in reg.instances && Some(k) != PlayerKey(reg, p) ==> r.instances[k] == reg.instances[k]
    ensures PlayerKey(reg, p).None? ==> r == reg
    ensures Valid(reg) ==> Valid(r)
  {
    match PlayerKey(reg, p)
    case None => reg
    case Some(k) => reg.(instances := reg.instances[k := Instances.RemovePlayer(reg.instances[k], p).state])
  }
}

=== FILE: registry_properties.dfy ===
/**
 * Properties of the instance registry: what its operations preserve, where the source lets
 * the assignment map and the active sets drift apart, and end-to-end scenarios.
 */
module RegistryProperties {
  import opened Common
  import opened Text
  import opened PlayerInstanceData
  import Instances
  import opened InstanceManager

  // ---------------------------------------------------------------- initialisation

  /** The first `Initialize` yields exactly the unlimited default instance and nothing else. */
  lemma InitializeFromEmpty()
    ensures var r := Initialize(Empty());
      && r.instances.Keys == {DefaultId}
      && r.instances[DefaultId].maxPlayers == 0
      && r.instances[DefaultId].active == {}
      && r.assignments == map[]
      && Valid(r) && Consistent(r) && UniqueNames(r)
  {
  }

  /** A second `Initialize` changes nothing. */
  lemma InitializeIdempotent(reg: Registry)
    ensures Initialize(Initialize(reg)) == Initialize(reg)
  {
  }

  // ---------------------------------------------------------------- creation and names

  /** Creating an instance adds an empty one, so the assignment map and the active sets still agree. */
  lemma CreateKeepsConsistent(reg: Registry, name: string, ownerId: string, description: string, ticks: nat)
    requires Consistent(reg)
    ensures Consistent(CreateInstance(reg, name, ownerId, description, ticks).state)
  {
    var c := CreateInstance(reg, name, ownerId, description, ticks);
    if c.result.Created? {
      var r := c.state;
      var id := c.result.instance.id;
      forall k, p | k in r.instances && p in r.instances[k].active
        ensures p in r.assignments && r.assignments[p] == k
      {
        assert k != id;
      }
    }
  }

  /** Creating an instance keeps names unique ignoring case. */
  lemma CreateKeepsUniqueNames(reg: Registry, name: string, ownerId: string, description: string, ticks: nat)
    requires UniqueNames(reg)
    ensures UniqueNames(CreateInstance(reg, name, ownerId, description, ticks).state)
  {
    var c := CreateInstance(reg, name, ownerId, description, ticks);
    if c.result.Created? {
      var r := c.state;
      var id := c.result.instance.id;
      forall j, k | j in r.instances && k in r.instances && SameName(r.instances[j].name, r.instances[k].name)
        ensures j == k
      {
        if j == id && k != id {
          assert SameName(reg.instances[k].name, name);
        }
      }
    }
  }

  /** Once a name is taken, any spelling of it that differs only in case is refused. */
  lemma CreateRefusesCaseVariant(reg: Registry, name: string, other: string, ownerId: string, description: string, ticks: nat, ticks2: nat)
    requires CreateInstance(reg, name, ownerId, description, ticks).result.Created?
    requires SameName(name, other)
    ensures var after := CreateInstance(reg, name, ownerId, description, ticks).state;
      CreateInstance(after, other, ownerId, description, ticks2) == Step(NameTaken, after)
  {
    var c := CreateInstance(reg, name, ownerId, description, ticks);
    var id := c.result.instance.id;
    assert c.state.instances[id].name == name;
    assert other != "" by {
      assert |Lower(other)| == |Lower(name)|;
    }
    assert NameInUse(c.state, other);
  }

  /** "Camp" and "camp" are the same name. */
  lemma CampIsCamp()
    ensures SameName("Camp", "camp")
  {
    SameNameOfCaseVariants("Camp", "camp");
  }

  /** With unique names, the name lookup finds exactly the instance carrying the name. */
  lemma FindByNameUnique(reg: Registry, k: string, name: string)
    requires UniqueNames(reg)
    requires k in reg.instances && name != ""
    requires SameName(reg.instances[k].name, name)
    ensures GetInstanceByName(reg, name) == Some(reg.instances[k])
  {
    var r := GetInstanceByName(reg, name);
    var j :| j in reg.instances && reg.instances[j] == r.value && SameName(r.value.name, name);
    SameNameIsEquivalence(reg.instances[j].name, name, reg.instances[k].name);
  }

  /** A freshly created instance is what the name lookup returns. */
  lemma CreatedIsFoundByName(reg: Registry, name: string, ownerId: string, description: string, ticks: nat)
    requires UniqueNames(reg)
    requires CreateInstance(reg, name, ownerId, description, ticks).result.Created?
    ensures var c := CreateInstance(reg, name, ownerId, description, ticks);
      GetInstanceByName(c.state, name) == Some(c.result.instance)
  {
    var c := CreateInstance(reg, name, ownerId, description, ticks);
    CreateKeepsUniqueNames(reg, name, ownerId, description, ticks);
    SameNameIsEquivalence(name, name, name);
    FindByNameUnique(c.state, c.result.instance.id, name);
  }

  /**
   * `Initialize` checks no names: an instance created before it under a case variant of
   * "Default Instance" leaves two instances with the same name.
   */
  lemma InitializeMayDuplicateName()
    ensures var c := CreateInstance(Empty(), "default instance", "o", "", 0);
      && c.result.Created?
      && !UniqueNames(Initialize(c.state))
  {
    var c := CreateInstance(Empty(), "default instance", "o", "", 0);
    var id := c.result.instance.id;
    GeneratedIdIsNotDefault(Empty().instances.Keys, "default instance", 0);
    var r := Initialize(c.state);
    assert r.instances[id].name == "default instance";
    assert r.instances[DefaultId].name == "Default Instance";
    SameNameOfCaseVariants("default instance", "Default Instance");
  }

  /** The empty name is never found. */
  lemma EmptyNameNotFound(reg: Registry)
    ensures GetInstanceByName(reg, "") == None
  {
  }

  // ---------------------------------------------------------------- lookups

  /** When the map and the active sets agree, a player's instance always exists and holds the player. */
  lemma AssignedPlayerIsInItsInstance(reg: Registry, p: string)
    requires Valid(reg) && reg.initialized && Consistent(reg)
    ensures GetPlayerInstance(reg, p).Some?
    ensures p != "" && p in reg.assignments ==> p in GetPlayerInstance(reg, p).value.active
    ensures p != "" && p !in reg.assignments ==> GetPlayerInstance(reg, p).value.id == DefaultId
  {
    if p != "" && p in reg.assignments {
      assert reg.assignments[p] in reg.instances;
    }
  }

  /** The default instance can never be deleted. */
  lemma DefaultIsProtected(reg: Registry)
    requires reg.initialized
    ensures DeleteInstance(reg, DefaultId) == Step(false, reg)
  {
  }

  // ---------------------------------------------------------------- assignment

  /** An assignment to a registered, named target succeeds exactly when the add after leaving does. */
  lemma AssignIsLeaveThenAdd(reg: Registry, p: string, instanceId: string)
    requires p != "" && instanceId != "" && instanceId in reg.instances
    ensures AssignPlayerToInstance(reg, p, instanceId).result
      == Instances.AddPlayer(LeaveCurrent(reg, p).instances[instanceId], p).result
  {
  }

  /** Under agreement, a valid assignment is refused only when the target is full and the player is not already in it. */
  lemma AssignSucceedsUnlessFull(reg: Registry, p: string, instanceId: string)
    requires "" !in reg.instances && Consistent(reg)
    requires p != "" && instanceId != "" && instanceId in reg.instances
    requires Instances.Valid(reg.instances[instanceId])
    ensures AssignPlayerToInstance(reg, p, instanceId).result
      <==> !Instances.IsFull(reg.instances[instanceId]) || AssignedKey(reg, p) == Some(instanceId)
  {
    AssignIsLeaveThenAdd(reg, p, instanceId);
    var left := LeaveCurrent(reg, p).instances[instanceId];
    var target := reg.instances[instanceId];
    if AssignedKey(reg, p) == Some(instanceId) {
      assert p in target.active;
      assert left.active == target.active - {p};
      assert |left.active| == |target.active| - 1;
    } else {
      assert left == target;
    }
  }

  /**
   * Moving one player into instance `t`, with every other player staying where it was, keeps
   * the map and the active sets in agreement.
   */
  lemma MoveKeepsConsistent(reg: Registry, r: Registry, p: string, t: string)
    requires Consistent(reg)
    requires r.instances.Keys == reg.instances.Keys && t in reg.instances
    requires r.assignments == reg.assignments[p := t]
    requires p in r.instances[t].active
    requires forall k :: k in reg.instances && k != t ==> p !in r.instances[k].active
    requires forall k :: k in reg.instances ==> r.instances[k].active - {p} == reg.instances[k].active - {p}
    ensures Consistent(r)
  {
    forall k, q | k in r.instances && q in r.instances[k].active
      ensures q in r.assignments && r.assignments[q] == k
    {
      if q != p {
        assert q in reg.instances[k].active - {p};
      }
    }
    forall q | q in r.assignments
      ensures r.assignments[q] in r.instances && q in r.instances[r.assignments[q]].active
    {
      if q != p {
        assert q in reg.instances[reg.assignments[q]].active - {p};
      }
    }
  }

  /** A successful assignment to a named instance keeps the map and the active sets in agreement. */
  lemma AssignKeepsConsistent(reg: Registry, p: string, instanceId: string)
    requires "" !in reg.instances && Consistent(reg)
    requires instanceId != ""
    requires AssignPlayerToInstance(reg, p, instanceId).result
    ensures Consistent(AssignPlayerToInstance(reg, p, instanceId).state)
  {
    var r := AssignPlayerToInstance(reg, p, instanceId).state;
    AssignMovesOnlyPlayer(reg, p, instanceId);
    forall k | k in reg.instances && k != instanceId
      ensures p !in r.instances[k].active
    {
      if p in reg.instances[k].active {
        assert AssignedKey(reg, p) == Some(k);
      }
    }
    MoveKeepsConsistent(reg, r, p, instanceId);
  }

  /**
   * The capacity-failure path: the player has already left the old instance when the add to
   * the full target fails, yet the assignment still names the old instance.
   */
  lemma AssignToFullTargetLeavesStaleAssignment(reg: Registry, p: string, instanceId: string)
    requires Valid(reg) && Consistent(reg)
    requires p != "" && p in reg.assignments
    requires instanceId != "" && instanceId in reg.instances && instanceId != reg.assignments[p]
    requires Instances.IsFull(reg.instances[instanceId])
    ensures var r := AssignPlayerToInstance(reg, p, instanceId);
      && !r.result
      && r.state.assignments[p] == reg.assignments[p]
      && p !in r.state.instances[reg.assignments[p]].active
      && !Consistent(r.state)
  {
    AssignSucceedsUnlessFull(reg, p, instanceId);
  }

  /**
   * Assigning with the empty instance id joins the default instance but records "" as the
   * assignment, which names no instance.
   */
  lemma AssignWithEmptyIdRecordsEmpty(reg: Registry, p: string)
    requires Valid(reg) && Consistent(reg) && reg.initialized
    requires p != "" && p !in reg.assignments
    requires !Instances.IsFull(reg.instances[DefaultId])
    ensures var r := AssignPlayerToInstance(reg, p, "");
      && r.result
      && r.state.assignments[p] == ""
      && p in r.state.instances[DefaultId].active
      && "" !in r.state.instances
      && !NoDangling(r.state)
      && GetPlayerInstance(r.state, p) == Some(r.state.instances[DefaultId])
  {
  }

  /** Removing a player keeps the map and the active sets in agreement. */
  lemma RemoveKeepsConsistent(reg: Registry, p: string)
    requires "" !in reg.instances && Consistent(reg)
    ensures Consistent(RemovePlayerFromInstance(reg, p).state)
  {
    var s := RemovePlayerFromInstance(reg, p);
    var r := s.state;
    if s.result {
      var home := reg.assignments[p];
      assert AssignedKey(reg, p) == Some(home);
      forall k | k in reg.instances
        ensures r.instances[k].active == reg.instances[k].active - {p}
      {
        if k != home {
          assert p !in reg.instances[k].active;
        }
      }
      forall k, q | k in r.instances && q in r.instances[k].active
        ensures q in r.assignments && r.assignments[q] == k
      {
        assert q in reg.instances[k].active - {p};
      }
      forall q | q in r.assignments
        ensures r.assignments[q] in r.instances && q in r.instances[r.assignments[q]].active
      {
        var k := reg.assignments[q];
        assert q in reg.instances[k].active - {p};
      }
      assert ActiveAreAssigned(r);
      assert AssignedAreActive(r);
    }
  }

  /** A successful removal sends the player back to the default instance as far as lookups go. */
  lemma RemovedPlayerFallsBackToDefault(reg: Registry, p: string)
    requires Valid(reg) && reg.initialized
    requires RemovePlayerFromInstance(reg, p).result
    ensures GetPlayerInstance(RemovePlayerFromInstance(reg, p).state, p).value.id == DefaultId
  {
  }

  // ---------------------------------------------------------------- game events

  /** Disconnecting keeps the assignment but drops the player from the active set. */
  lemma DisconnectLeavesStaleAssignment(reg: Registry, p: string)
    requires Valid(reg) && Consistent(reg)
    requires p != "" && p in reg.assignments
    ensures var r := OnPlayerDisconnected(reg, p);
      && r.assignments[p] == reg.assignments[p]
      && p !in r.instances[reg.assignments[p]].active
      && !Consistent(r)
  {
  }

  /** An unassigned player who spawns is assigned to the default instance and its record takes the position. */
  lemma SpawnJoinsDefault(reg: Registry, p: string, pos: Vec3)
    requires Valid(reg) && Consistent(reg) && reg.initialized
    requires p != "" && p !in reg.assignments
    requires !Instances.IsFull(reg.instances[DefaultId])
    ensures var r := OnPlayerSpawned(reg, p, pos);
      && r.assignments == reg.assignments[p := DefaultId]
      && p in r.instances[DefaultId].active
      && GetPlayerData(r, p, "").Some?
      && GetPlayerData(r, p, "").value.lastPosition == pos
      && Consistent(r)
  {
    AssignSucceedsUnlessFull(reg, p, DefaultId);
    AssignKeepsConsistent(reg, p, DefaultId);
    var joined := AssignPlayerToInstance(reg, p, DefaultId).state;
    var r := OnPlayerSpawned(reg, p, pos);
    assert r == MoveRecord(joined, p, pos);
    assert p in joined.instances[DefaultId].playerData;
    forall k | k in joined.instances
      ensures r.instances[k].active == joined.instances[k].active
    {
      assert r.instances[k].(playerData := joined.instances[k].playerData) == joined.instances[k];
    }
  }

  /**
   * An unassigned player who spawns on a valid, initialised registry, with no assumption
   * about agreement: it is assigned to the default instance exactly when that add succeeds,
   * it is then active there with its record at the spawn position, and no other instance
   * changes.
   */
  lemma SpawnAssignsUnassigned(reg: Registry, p: string, pos: Vec3)
    requires Valid(reg) && reg.initialized
    requires p != "" && p !in reg.assignments
    ensures var r := OnPlayerSpawned(reg, p, pos);
      var d := reg.instances[DefaultId];
      && (p in r.assignments <==> p !in d.active && !Instances.IsFull(d))
      && (p in r.assignments ==> r.assignments == reg.assignments[p := DefaultId])
      && (p !in r.assignments ==> r.assignments == reg.assignments)
      && r.instances[DefaultId].active == (if p in r.assignments then d.active + {p} else d.active)
      && (forall k :: k in reg.instances && k != DefaultId ==> r.instances[k] == reg.instances[k])
      && (p in r.assignments ==> GetPlayerData(r, p, "").Some? && GetPlayerData(r, p, "").value.lastPosition == pos)
  {
    var d := reg.instances[DefaultId];
    assert LeaveCurrent(reg, p) == reg;
    var added := Instances.AddPlayer(d, p);
    var joined := AssignPlayerToInstance(reg, p, DefaultId).state;
    assert joined == (if added.result then reg.(instances := reg.instances[DefaultId := added.state], assignments := reg.assignments[p := DefaultId]) else reg);
    assert CurrentKey(joined, p) == Some(DefaultId);
    var r := OnPlayerSpawned(reg, p, pos);
    assert r == MoveRecord(joined, p, pos);
    if added.result {
      assert p in joined.instances[DefaultId].playerData;
    }
  }

  /** A spawn changes no record but the spawning player's own. */
  lemma SpawnTouchesOnlyOwnRecord(reg: Registry, p: string, pos: Vec3, k: string, q: string)
    requires k in reg.instances && q in reg.instances[k].playerData && q != p
    ensures var r := OnPlayerSpawned(reg, p, pos);
      k in r.instances && q in r.instances[k].playerData && r.instances[k].playerData[q] == reg.instances[k].playerData[q]
  {
    var joined := if p !in reg.assignments then AssignPlayerToInstance(reg, p, DefaultId).state else reg;
    assert k in joined.instances && q in joined.instances[k].playerData && joined.instances[k].playerData[q] == reg.instances[k].playerData[q] by {
      if p !in reg.assignments {
        assert LeaveCurrent(reg, p) == reg;
      }
    }
  }
}

=== FILE: scenarios.dfy ===
/**
 * The registry driven by a sequence of the operations a server issues, and a concrete session.
 */
module Scenarios {
  import opened Common
  import opened PlayerInstanceData
  import Instances
  import opened InstanceManager
  import RegistryProperties

  /** The registry-changing operations; the clock reading for creation travels with the request. */
  datatype Op =
    | Create(name: string, ownerId: string, description: string, ticks: nat)
    | Assign(player: string, instanceId: string)
    | Remove(player: string)
    | Delete(instanceId: string)
    | Spawned(player: string, position: Vec3)
    | Disconnected(player: string)

  /** The registry after one operation on an initialised registry. */
  function Apply(reg: Registry, op: Op): (r: Registry)
    requires reg.initialized
    ensures r.initialized
    ensures Valid(reg) ==> Valid(r)
  {
    match op
    case Create(name, owner, desc, ticks) => CreateInstance(reg, name, owner, desc, ticks).state
    case Assign(p, id) => AssignPlayerToInstance(reg, p, id).state
    case Remove(p) => RemovePlayerFromInstance(reg, p).state
    case Delete(id) => DeleteInstance(reg, id).state
    case Spawned(p, pos) => OnPlayerSpawned(reg, p, pos)
    case Disconnected(p) => OnPlayerDisconnected(reg, p)
  }

  /** The registry after each operation of `ops` in turn. */
  function Run(reg: Registry, ops: seq<Op>): Registry
    requires reg.initialized
    decreases |ops|
  {
    if ops == [] then reg else Run(Apply(reg, ops[0]), ops[1..])
  }

  /**
   * Starting from `Initialize`, any sequence of operations keeps the registry valid, and the
   * default instance is never lost.
   */
  lemma {:induction false} RunKeepsDefault(reg: Registry, ops: seq<Op>)
    requires Valid(reg) && reg.initialized
    ensures Run(reg, ops).initialized
    ensures Valid(Run(reg, ops))
    ensures DefaultId in Run(reg, ops).instances
    decreases |ops|
  {
    if ops != [] {
      RunKeepsDefault(Apply(reg, ops[0]), ops[1..]);
    }
  }

  /** The same from a fresh server: initialise, then run anything. */
  lemma SessionKeepsDefault(ops: seq<Op>)
    ensures Initialize(Empty()).initialized
    ensures DefaultId in Run(Initialize(Empty()), ops).instances
  {
    assert Valid(Empty());
    RunKeepsDefault(Initialize(Empty()), ops);
  }

  /** A registry whose instances all come from `reg`, under the same names, keeps names unique. */
  lemma NamesKeptKeepUnique(reg: Registry, r: Registry)
    requires UniqueNames(reg)
    requires r.instances.Keys <= reg.instances.Keys
    requires forall k :: k in r.instances ==> r.instances[k].name == reg.instances[k].name
    ensures UniqueNames(r)
  {
  }

  /** An assignment renames nothing. */
  lemma AssignKeepsNames(reg: Registry, p: string, id: string)
    ensures var r := AssignPlayerToInstance(reg, p, id).state;
      forall k :: k in reg.instances ==> r.instances[k].name == reg.instances[k].name
  {
    var r := AssignPlayerToInstance(reg, p, id);
    if p == "" || ResolveKey(reg, id).None? {
      assert r.state == reg;
    } else {
      var target := ResolveKey(reg, id).value;
      var left := LeaveCurrent(reg, p);
      var added := Instances.AddPlayer(left.instances[target], p);
      forall k | k in reg.instances
        ensures r.state.instances[k].name == reg.instances[k].name
      {
        assert OnlyMoves(reg.instances[k], left.instances[k], p);
        if added.result {
          assert r.state.instances == left.instances[target := added.state];
        } else {
          assert r.state == left;
        }
      }
    }
  }

  /** No operation of a session makes two instances share a name. */
  lemma ApplyKeepsUniqueNames(reg: Registry, op: Op)
    requires reg.initialized && UniqueNames(reg)
    ensures UniqueNames(Apply(reg, op))
  {
    var r := Apply(reg, op);
    match op
    case Create(name, owner, desc, ticks) =>
      RegistryProperties.CreateKeepsUniqueNames(reg, name, owner, desc, ticks);
    case Assign(p, id) =>
      AssignKeepsNames(reg, p, id);
      NamesKeptKeepUnique(reg, r);
    case Remove(p) =>
      NamesKeptKeepUnique(reg, r);
    case Delete(id) =>
      NamesKeptKeepUnique(reg, r);
    case Spawned(p, pos) =>
      var joined := if p !in reg.assignments then AssignPlayerToInstance(reg, p, DefaultId).state else reg;
      AssignKeepsNames(reg, p, DefaultId);
      assert r == MoveRecord(joined, p, pos);
      NamesKeptKeepUnique(reg, r);
    case Disconnected(p) =>
      NamesKeptKeepUnique(reg, r);
  }

  /**
   * Names stay unique, ignoring case, over any sequence of operations on an initialised
   * registry where they were unique to begin with.
   */
  lemma {:induction false} RunKeepsUniqueNames(reg: Registry, ops: seq<Op>)
    requires reg.initialized && UniqueNames(reg)
    ensures UniqueNames(Run(reg, ops))
    decreases |ops|
  {
    if ops != [] {
      ApplyKeepsUniqueNames(reg, ops[0]);
      RunKeepsUniqueNames(Apply(reg, ops[0]), ops[1..]);
    }
  }

  /**
   * An unassigned player sent to a registered instance with room is reported there; once
   * removed again, it is reported in the default instance.
   */
  lemma SendAndReturn(reg: Registry, p: string, id: string)
    requires Valid(reg) && reg.initialized
    requires p != "" && p !in reg.assignments
    requires id != "" && id in reg.instances && p !in reg.instances[id].active
    requires !Instances.IsFull(reg.instances[id])
    ensures var sent := AssignPlayerToInstance(reg, p, id);
      && sent.result
      && GetPlayerInstance(sent.state, p) == Some(sent.state.instances[id])
      && sent.state.instances[id].name == reg.instances[id].name
      && var back := RemovePlayerFromInstance(sent.state, p);
      && back.result
      && GetPlayerInstance(back.state, p).Some?
      && GetPlayerInstance(back.state, p).value.id == DefaultId
  {
    var sent := AssignPlayerToInstance(reg, p, id);
    assert sent.result && sent.state.assignments == reg.assignments[p := id]
      && sent.state.instances[id] == Instances.AddPlayer(reg.instances[id], p).state by {
      FreshPlayerJoinsUnlessFull(reg, p, id);
    }
    var back := RemovePlayerFromInstance(sent.state, p);
    assert AssignedKey(sent.state, p) == Some(id);
    assert back.result && p !in back.state.assignments && Valid(back.state) && back.state.initialized;
  }

  /**
   * A concrete session: create "Arena", send P1 there, look P1 up, take P1 out again; P1 is
   * then reported in the default instance.
   */
  lemma ArenaScenario(ownerId: string, description: string, ticks: nat)
    ensures var start := Initialize(Empty());
      var made := CreateInstance(start, "Arena", ownerId, description, ticks);
      && made.result.Created?
      && var id := made.result.instance.id;
      var sent := AssignPlayerToInstance(made.state, "P1", id);
      && sent.result
      && GetPlayerInstance(sent.state, "P1") == Some(sent.state.instances[id])
      && sent.state.instances[id].name == "Arena"
      && var back := RemovePlayerFromInstance(sent.state, "P1");
      && back.result
      && GetPlayerInstance(back.state, "P1").Some?
      && GetPlayerInstance(back.state, "P1").value.id == DefaultId
  {
    var start := Initialize(Empty());
    assert Valid(Empty());
    assert !NameInUse(start, "Arena") by {
      assert start.instances.Keys == {DefaultId};
      assert Text.Lower("Default Instance")[0] != Text.Lower("Arena")[0];
    }
    var made := CreateInstance(start, "Arena", ownerId, description, ticks);
    var id := made.result.instance.id;
    GeneratedIdIsNotDefault(start.instances.Keys, "Arena", ticks);
    SendAndReturn(made.state, "P1", id);
  }

  /** The registry with the capacity of instance `id` set, as callers do through the public property. */
  function WithCapacity(reg: Registry, id: string, maxPlayers: int): (r: Registry)
    requires id in reg.instances
    ensures r.instances.Keys == reg.instances.Keys && r.assignments == reg.assignments
    ensures r.instances[id].maxPlayers == maxPlayers
    ensures r.instances[id].(maxPlayers := reg.instances[id].maxPlayers) == reg.instances[id]
  {
    reg.(instances := reg.instances[id := reg.instances[id].(maxPlayers := maxPlayers)])
  }

  /**
   * An unassigned player sent to a registered instance it is not in joins exactly when the
   * instance has room; the capacity and every other instance's players are untouched.
   */
  lemma FreshPlayerJoinsUnlessFull(reg: Registry, p: string, id: string)
    requires p != "" && p !in reg.assignments
    requires id != "" && id in reg.instances && p !in reg.instances[id].active
    ensures var s := AssignPlayerToInstance(reg, p, id);
      && (s.result <==> !Instances.IsFull(reg.instances[id]))
      && s.state.instances[id].maxPlayers == reg.instances[id].maxPlayers
      && (s.result ==> s.state.instances[id].active == reg.instances[id].active + {p})
      && (s.result ==> s.state.assignments == reg.assignments[p := id])
      && (s.result ==> s.state.instances[id] == Instances.AddPlayer(reg.instances[id], p).state)
      && (!s.result ==> s.state == reg)
  {
    assert LeaveCurrent(reg, p) == reg;
  }

  lemma PairSize(a1: set<string>, a2: set<string>, p1: string, p2: string, p3: string)
    requires a1 == {p1} && a2 == a1 + {p2} && p1 != p2 && p3 != p1 && p3 != p2
    ensures |a2| == 2 && p3 !in a2
  {
    assert a2 == {p1, p2};
  }

  /** Three newcomers sent to an empty instance with room for two: the first two get in. */
  lemma TwoOfThreeJoin(reg: Registry, id: string, p1: string, p2: string, p3: string)
    requires id != "" && id in reg.instances
    requires reg.instances[id].active == {} && reg.instances[id].maxPlayers == 2
    requires p1 != "" && p2 != "" && p3 != "" && p1 != p2 && p1 != p3 && p2 != p3
    requires p1 !in reg.assignments && p2 !in reg.assignments && p3 !in reg.assignments
    ensures var s1 := AssignPlayerToInstance(reg, p1, id);
      var s2 := AssignPlayerToInstance(s1.state, p2, id);
      var s3 := AssignPlayerToInstance(s2.state, p3, id);
      && s1.result && s2.result && !s3.result
      && |s3.state.instances[id].active| == 2
  {
    var s1 := AssignPlayerToInstance(reg, p1, id);
    var a1 := s1.state.instances[id].active;
    assert s1.result && a1 == {p1} && s1.state.instances[id].maxPlayers == 2
      && id in s1.state.instances && p2 !in s1.state.assignments && p3 !in s1.state.assignments by {
      FreshPlayerJoinsUnlessFull(reg, p1, id);
    }
    var s2 := AssignPlayerToInstance(s1.state, p2, id);
    var a2 := s2.state.instances[id].active;
    assert s2.result && a2 == a1 + {p2} && s2.state.instances[id].maxPlayers == 2
      && id in s2.state.instances && p3 !in s2.state.assignments by {
      FreshPlayerJoinsUnlessFull(s1.state, p2, id);
    }
    PairSize(a1, a2, p1, p2, p3);
    var s3 := AssignPlayerToInstance(s2.state, p3, id);
    assert !s3.result && s3.state == s2.state by {
      FreshPlayerJoinsUnlessFull(s2.state, p3, id);
    }
  }

  /**
   * A concrete session: "Duo" with room for two takes P1 and P2, refuses P3, and still holds
   * two players.
   */
  lemma DuoScenario(ownerId: string, description: string, ticks: nat)
    ensures var start := Initialize(Empty());
      var made := CreateInstance(start, "Duo", ownerId, description, ticks);
      && made.result.Created?
      && var id := made.result.instance.id;
      var duo := WithCapacity(made.state, id, 2);
      var s1 := AssignPlayerToInstance(duo, "P1", id);
      var s2 := AssignPlayerToInstance(s1.state, "P2", id);
      var s3 := AssignPlayerToInstance(s2.state, "P3", id);
      && s1.result && s2.result && !s3.result
      && |s3.state.instances[id].active| == 2
  {
    var start := Initialize(Empty());
    assert Valid(Empty());
    assert !NameInUse(start, "Duo") by {
      assert start.instances.Keys == {DefaultId};
      assert Text.Lower("Default Instance")[1] != Text.Lower("Duo")[1];
    }
    var made := CreateInstance(start, "Duo", ownerId, description, ticks);
    var id := made.result.instance.id;
    GeneratedIdIsNotDefault(start.instances.Keys, "Duo", ticks);
    TwoOfThreeJoin(WithCapacity(made.state, id, 2), id, "P1", "P2", "P3");
  }
}

=== FILE: text.dfy ===
/** Character and string helpers: ordinal case folding and decimal rendering of counters. */
module Text {

  /** ASCII lower-casing of one character; every other character is left as it is. */
  function LowerChar(c: char): char
  {
    if 'A' <= c <= 'Z' then (c as int + 32) as char else c
  }

  /**
   * String lower-casing, character by character: no ASCII capital survives, and every
   * character either stays or is replaced by the small letter of its capital.
   */
  function Lower(s: string): (r: string)
    ensures |r| == |s|
    ensures forall i :: 0 <= i < |r| ==> !('A' <= r[i] <= 'Z')
    ensures forall i :: 0 <= i < |r| ==> r[i] == s[i] || ('A' <= s[i] <= 'Z' && r[i] as int == s[i] as int + 32)
  {
    seq(|s|, i requires 0 <= i < |s| => LowerChar(s[i]))
  }

  /** Ordinal case-insensitive string equality (`StringComparison.OrdinalIgnoreCase`). */
  predicate SameName(a: string, b: string)
  {
    Lower(a) == Lower(b)
  }

  /** Case-insensitive equality is an equivalence relation. */
  lemma SameNameIsEquivalence(a: string, b: string, c: string)
    ensures SameName(a, a)
    ensures SameName(a, b) ==> SameName(b, a)
    ensures SameName(a, b) && SameName(b, c) ==> SameName(a, c)
  {
  }

  /** Names that differ only in ASCII letter case are the same name. */
  lemma {:induction false} SameNameOfCaseVariants(a: string, b: string)
    requires |a| == |b|
    requires forall i :: 0 <= i < |a| ==> a[i] == b[i] || LowerChar(a[i]) == b[i] || a[i] == LowerChar(b[i])
    ensures SameName(a, b)
  {
    forall i | 0 <= i < |a|
      ensures Lower(a)[i] == Lower(b)[i]
    {
      assert LowerChar(LowerChar(a[i])) == LowerChar(a[i]);
      assert LowerChar(LowerChar(b[i])) == LowerChar(b[i]);
    }
  }

  /** Conversely, names that are the same name differ at most in ASCII letter case, position by position. */
  lemma SameNameIsCaseVariant(a: string, b: string)
    requires SameName(a, b)
    ensures |a| == |b|
    ensures forall i :: 0 <= i < |a| ==> a[i] == b[i] || LowerChar(a[i]) == b[i] || a[i] == LowerChar(b[i])
  {
    assert |a| == |Lower(a)| == |Lower(b)| == |b|;
    forall i | 0 <= i < |a|
      ensures a[i] == b[i] || LowerChar(a[i]) == b[i] || a[i] == LowerChar(b[i])
    {
      assert Lower(a)[i] == Lower(b)[i];
    }
  }

  /** `name.ToLower().Replace(" ", "_")`: the readable stem of a generated instance id. */
  function IdStem(name: string): (r: string)
    ensures |r| == |name|
    ensures forall i :: 0 <= i < |r| ==> r[i] != ' '
    ensures forall i :: 0 <= i < |r| ==> r[i] == (if name[i] == ' ' then '_' else Lower(name)[i])
  {
    seq(|name|, i requires 0 <= i < |name| => if LowerChar(name[i]) == ' ' then '_' else LowerChar(name[i]))
  }

  /** The stem ignores case: two spellings of the same name give the same stem. */
  lemma SameNameSameStem(a: string, b: string)
    requires SameName(a, b)
    ensures IdStem(a) == IdStem(b)
  {
    forall i | 0 <= i < |a|
      ensures IdStem(a)[i] == IdStem(b)[i]
    {
      assert Lower(a)[i] == Lower(b)[i];
    }
  }

  function Digit(d: nat): char
    requires d < 10
  {
    ('0' as int + d) as char
  }

  /** The decimal rendering of a natural number, most significant digit first. */
  function DecimalString(n: nat): (r: string)
    ensures |r| >= 1
    ensures n >= 10 ==> |r| >= 2
  {
    if n < 10 then [Digit(n)] else DecimalString(n / 10) + [Digit(n % 10)]
  }

  /** Different numbers render as different strings. */
  lemma {:induction false} DecimalStringInjective(m: nat, n: nat)
    requires DecimalString(m) == DecimalString(n)
    ensures m == n
    decreases m
  {
    if m < 10 && n < 10 {
      assert DecimalString(m)[0] == Digit(m);
    } else if m >= 10 && n >= 10 {
      var a, b := DecimalString(m), DecimalString(n);
      assert a[|a| - 1] == Digit(m % 10) && b[|b| - 1] == Digit(n % 10);
      assert a[..|a| - 1] == DecimalString(m / 10);
      assert b[..|b| - 1] == DecimalString(n / 10);
      DecimalStringInjective(m / 10, n / 10);
    }
  }
}

=== FILE: unique_id.dfy ===
/** Instance id generation: `<lower-cased name>_<ticks>`, with `_<counter>` appended until the id is free. */
module UniqueIds {
  import opened Text

  /** The first candidate id: the name's stem, an underscore, and the clock's tick count. */
  function BaseId(name: string, ticks: nat): string
  {
    IdStem(name) + "_" + DecimalString(ticks)
  }

  /** The disambiguated candidate tried on the `counter`-th collision. */
  function Suffixed(base: string, counter: nat): string
  {
    base + "_" + DecimalString(counter)
  }

  lemma SuffixedInjective(base: string, j: nat, k: nat)
    requires Suffixed(base, j) == Suffixed(base, k)
    ensures j == k
  {
    var prefix := base + "_";
    assert Suffixed(base, j)[|prefix|..] == DecimalString(j);
    assert Suffixed(base, k)[|prefix|..] == DecimalString(k);
    DecimalStringInjective(j, k);
  }

  /** The candidates `base_1` .. `base_n`. */
  function Candidates(base: string, n: nat): set<string>
  {
    set k: nat | 1 <= k <= n :: Suffixed(base, k)
  }

  /** The candidates are pairwise distinct, so there are exactly `n` of them. */
  lemma {:induction false} CandidatesSize(base: string, n: nat)
    ensures |Candidates(base, n)| == n
  {
    if n > 0 {
      CandidatesSize(base, n - 1);
      assert Candidates(base, n) == Candidates(base, n - 1) + {Suffixed(base, n)};
      if Suffixed(base, n) in Candidates(base, n - 1) {
        var k: nat :| 1 <= k <= n - 1 && Suffixed(base, k) == Suffixed(base, n);
        SuffixedInjective(base, k, n);
      }
    }
  }

  lemma SubsetSize<T>(a: set<T>, b: set<T>)
    requires a <= b
    ensures |a| <= |b|
  {
    assert b == a + (b - a);
  }

  /**
   * The loop of the source's id generator: starting at `counter`, the first counter whose
   * candidate is not a key. It terminates because each taken candidate is a distinct key.
   */
  function FirstFreeCounter(keys: set<string>, base: string, counter: nat): (k: nat)
    requires counter >= 1
    requires forall j: nat :: 1 <= j < counter ==> Suffixed(base, j) in keys
    ensures k >= counter
    ensures Suffixed(base, k) !in keys
    ensures forall j: nat :: counter <= j < k ==> Suffixed(base, j) in keys
    decreases |keys| + 1 - counter
  {
    if Suffixed(base, counter) !in keys then counter
    else
      CandidatesSize(base, counter);
      SubsetSize(Candidates(base, counter), keys);
      FirstFreeCounter(keys, base, counter + 1)
  }

  /**
   * `GenerateUniqueId`: the base id if it is free, otherwise the first free `base_<counter>`.
   * The result never collides with an existing key, always starts with the base id, and
   * always contains an underscore (so it is never the reserved id "default").
   */
  function GenerateUniqueId(keys: set<string>, name: string, ticks: nat): (id: string)
    ensures id !in keys
    ensures BaseId(name, ticks) <= id
    ensures id[|IdStem(name)|] == '_'
    ensures BaseId(name, ticks) !in keys ==> id == BaseId(name, ticks)
  {
    var base := BaseId(name, ticks);
    if base !in keys then base
    else Suffixed(base, FirstFreeCounter(keys, base, 1))
  }
}
